=== FILE: README.md ===
# Smart video search: a Dafny model of the indexing and search core

This project models the deterministic policy of the smart video search service
(Python, Qdrant, Whisper, CLIP) and proves properties of it. There are four
pieces:

- **the vector-store gateway** (`QdrantManager`), which covers:
  - the connect / retry / in-memory fallback schedule;
  - idempotent collection set-up;
  - the rewrite of every stored path into an `/app/...` form;
  - the payload merge and the fresh-id append of `index_video`;
  - the append-only semantic cache;
  - the request and result mapping of the fused hybrid search;
- **the indexing command** (`index_videos`), which covers:
  - building the set of already-indexed paths from one scroll page;
  - the new/skipped partition of the discovered videos;
  - the per-video loop with failure isolation and temporary-audio cleanup;
  - the summary counts;
- **the search endpoint** (`search_videos`): the cache hit/miss decision at the
  0.9 threshold, the hybrid search on a miss, and the cache write-back;
- **the media helpers**:
  - the extension filter of `get_video_files`;
  - the frame-sampling schedule of `extract_frames`;
  - the name sanitisation and converted/skipped/failed bookkeeping of
    `convert_videos_to_web_compatible`.

Everything outside the code's own decisions is an oracle, given as a
parameter. That covers Qdrant's answers, the embedders, ffmpeg, decoding,
transcription and file-system effects. Python's `posixpath` functions
(`basename`, `join`, `dirname`, lexical `normpath`) are modelled in
`posix_path.dfy` over strings; `normpath` works on the list of
'/'-separated segments.

Files, one module each:

- `basics.dfy` — `Option`, prefixes, `Filter` and its lemmas.
- `config.dfy` — the constants.
- `posix_path.dfy` — the path functions.
- `gateway.dfy` — vectordb/qdrant_client.py without the constructor.
- `connection.dfy` — the constructor's retry loop as a state machine.
- `processor.dfy` — video_processor/processor.py.
- `indexing.dfy` — main.py `index_videos`.
- `search_api.dfy` — api/search_api.py.

Two places where the code does less than its own docstring or comments suggest:

- **Recognising indexed videos.** The docstring of `index_videos`
  (main.py:26-27) says it recognises videos that are already indexed and skips
  them. The comparison at main.py:80-81 puts `normpath` of the discovered path
  next to `normpath` of the stored `/app/...` path, so a relative discovered
  path never matches. See "## Findings".
- **One page of indexed paths.** The scroll at main.py:59-63 asks for one page
  of at most 1000 points and reads no further pages, so on a larger collection
  the points after the first 1000 are not recognised. The model reads exactly
  that one page.

## Model

| member | source | states |
|---|---|---|
| PosixPath.Basename | vectordb/qdrant_client.py:111 | the basename has no separator, is a suffix of the path, and is preceded by a separator when shorter than the path |
| PosixPath.Join | video_processor/processor.py:34 | joining onto an absolute second path yields it unchanged; otherwise the second path is appended to the first, with one separator inserted exactly when the first is non-empty and does not already end in one |
| PosixPath.BasenameOfJoin | vectordb/qdrant_client.py:115-117 | the basename of a join is the basename of its second argument |
| PosixPath.Dirname | main.py:39 | the directory part is the head before the basename: unchanged when it is separators only, otherwise with its trailing separators removed; empty for a path without a separator |
| PosixPath.DirnameOfJoin | main.py:39 | joining a separator-free name onto a directory that `dirname` could return gives a path whose `dirname` is that directory and whose `basename` is the name |
| PosixPath.NormPathShape | main.py:68 | `normpath` is the leading slashes (at most two) followed by the normal components that folding `.` and `..` leaves, or "." when both are empty |
| PosixPath.NormPathKeepsAbs | main.py:80 | `normpath` of a path is absolute exactly when the path is |
| PosixPath.NormPathIdempotent | main.py:68 | normalising a normalised path changes nothing |
| Gateway.NextId | vectordb/qdrant_client.py:110 | the id minted for a new point is not the id of any stored point |
| Gateway.InitCollections | vectordb/qdrant_client.py:53-92 | after a successful set-up both collections exist; existing collections are kept unchanged and never re-requested; only the two named collections are created; success iff listing works and each missing collection can be created |
| Gateway.InitCollectionsIdempotent | vectordb/qdrant_client.py:56-85 | a second set-up after a successful one requests nothing and changes nothing |
| Gateway.StoredPath | vectordb/qdrant_client.py:113-119 | the stored path starts with "/app/"; a path already under "/app/" is kept; a relative path is put under "/app/"; the basename is preserved |
| Gateway.StoredPathIdempotent | vectordb/qdrant_client.py:113-119 | rewriting a stored path gives it back unchanged |
| Gateway.StoredPathCollapsesAbsolute | vectordb/qdrant_client.py:114-115 | two absolute paths outside "/app" with the same file name get the same stored path, "/app/" + that name |
| Gateway.StoredPathCollisionExample | vectordb/qdrant_client.py:114-115 | "/a/x.mp4" and "/b/x.mp4" are different, yet both are stored as "/app/x.mp4" |
| Gateway.MergePayload | vectordb/qdrant_client.py:121-124 | the payload keeps every caller key with its value and only sets or overwrites `video_path` and `video_name` |
| Gateway.Upsert | vectordb/qdrant_client.py:126-142 | an upsert adds the point, replaces only a point with the same id, keeps all others, and grows the store by one exactly when the id is new |
| Gateway.IndexVideo | vectordb/qdrant_client.py:109-147 | indexing mints an id absent from the store and appends one record; no existing record is replaced |
| Gateway.IndexVideoNamesFile | vectordb/qdrant_client.py:111-124 | the new record stores the rewritten path, and its `video_name` is both the basename of the stored path and the basename of the input |
| Gateway.UpsertSemanticCache | vectordb/qdrant_client.py:149-170 | a working write appends exactly one entry under a fresh id holding the query, its vector and the results, keeping earlier entries; a failing write leaves the cache unchanged |
| Gateway.CacheQueryFor | vectordb/qdrant_client.py:180-183 | the cache lookup asks the `semantic_cache_queries` collection for the single nearest point on `text_dense_vector` to the given vector |
| Gateway.SemanticSearch | vectordb/qdrant_client.py:172-189 | the lookup returns Qdrant's answer to the top-1 cache query, or nothing when Qdrant raises |
| Gateway.HybridQueryFor | vectordb/qdrant_client.py:209-233 | the fused query has three prefetches of `2 * limit` candidates over the visual, dense and sparse spaces with the given vectors, RRF fusion and final `limit` |
| Gateway.ProjectAll | vectordb/qdrant_client.py:236-243 | the rows exist iff every point carries the four payload keys, and then there is one row per point and row i carries point i's id, score, video name, video path, transcript and preview path, tagged with the query text |
| Gateway.HybridSearch | vectordb/qdrant_client.py:191-249 | no limit, a raising Qdrant, or a returned point missing one of the four payload keys yields no rows; when every returned point has them, the result is one row per point, in order, carrying its id, score, four payload fields and the query text, so never more rows than the final limit when Qdrant honours it |
| Connection.RunTargets | vectordb/qdrant_client.py:33-39 | every attempt is numbered within 1..max_retries and goes to the remote host before the last attempt and to the in-memory store at it |
| Connection.RunSleeps | vectordb/qdrant_client.py:45-47 | a sleep follows exactly the failed attempts that are not the last, and nothing else |
| Connection.RunAttemptsTruthful | vectordb/qdrant_client.py:33-46 | each attempt is reported as succeeding exactly when connecting and initialising succeeded for it, and a successful attempt is the last event: the loop breaks after it |
| Connection.RunOutcome | vectordb/qdrant_client.py:33-51 | the client is remote iff some non-final attempt succeeds; when only the final in-memory attempt succeeds it is in-memory; with every attempt failing it is the fallback in-memory client (or the fallback raises); with no attempts it is never assigned |
| Connection.ConnectSchedule | vectordb/qdrant_client.py:22-51 | the whole constructor from attempts 1 to `max_retries`: attempts before the last go to the remote host and the last in memory; each attempt is reported with its true outcome and a successful one ends the trace; a sleep follows exactly the failed non-final attempts; the client is remote iff some non-final attempt succeeds, in-memory when only the last does, the fallback's outcome when all fail, and unassigned iff there are no attempts |
| Connection.DefaultScheduleUnreachableHost | vectordb/qdrant_client.py:22-51 | with three attempts and an unreachable host: two remote attempts each followed by a sleep, then the in-memory store |
| Processor.VideoFiles | video_processor/processor.py:27-36 | the files are exactly the listed names with a video extension, in listing order, each joined to the directory |
| Processor.VideoFilesNames | video_processor/processor.py:29-36 | every returned file's basename is a listed name with a video extension |
| Processor.VideoFilesRelative | video_processor/processor.py:34 | a relative directory with plain names yields only relative paths |
| Processor.IsVideoNameExamples | video_processor/processor.py:29-33 | the extension check ignores case ("CLIP.MP4") and looks only at the end ("clip.mp4.txt" is not a video) |
| Processor.CeilDivStep | video_processor/processor.py:145 | one more frame read adds a kept frame exactly when its index is a multiple of the interval |
| Processor.ExtractFrames | video_processor/processor.py:127-153 | with interval k > 0 the kept frames are indices 0, k, 2k, … and their number is min(30, ceil(n/k)); k = 0 is a division-by-zero error unless no frame is read; the loop agrees with the closed-form schedule |
| Processor.Sanitize | video_processor/processor.py:72 | sanitising keeps the length, replaces exactly the characters outside word characters, `-` and `.` with `_`, and leaves only allowed characters |
| Processor.SanitizeIdempotent | video_processor/processor.py:72 | sanitising a sanitised name changes nothing |
| Processor.Stem | video_processor/processor.py:71 | the stem is a prefix of the name; it is shorter than the name exactly when some dot has a non-dot before it, and then it ends right before the last dot and contains a character other than a dot (a name made of leading dots and an extension keeps its whole name) |
| Processor.TargetPath | video_processor/processor.py:70-73 | the target is the target directory joined with the sanitised stem of the source's file name followed by ".mp4": that is its basename, and its `dirname` is the target directory whenever the directory has a shape `dirname` can return |
| Processor.ConvertOne | video_processor/processor.py:67-116 | a source whose target exists is only skipped; otherwise it is appended to the converted list exactly when `mkdtemp`, ffmpeg and the copy all succeed, and to the failed list (converted unchanged) when any of them fails; the target exists afterwards iff it did or every step succeeded; no other target appears; the source lands in exactly one outcome list |
| Processor.ConvertLoopPartition | video_processor/processor.py:62-116 | converted, skipped and failed together are a permutation of the sources |
| Processor.ConvertLoopTargetsGrow | video_processor/processor.py:75-77 | the loop never loses a target path or a skipped source |
| Processor.ConvertLoopSkipsExisting | video_processor/processor.py:75-77 | a source whose target exists when its turn comes is skipped |
| Processor.ConvertLoopSkipsSameName | video_processor/processor.py:73-105 | after a source converts, a later source with the same target name is skipped |
| Processor.ConvertOneBalanced | video_processor/processor.py:80-112 | one iteration creates as many temporary directories as it removes and as ffmpeg runs |
| Processor.ConvertLoopCleansTemp | video_processor/processor.py:80-112 | over the whole loop every temporary directory created is removed, and ffmpeg runs once per temporary directory |
| Processor.WalkSources | video_processor/processor.py:56-59 | the sources are the walk's entries whose file name has a video extension, in walk order, each root joined with its file name |
| Processor.RemoveAll | video_processor/processor.py:118-120 | the removed paths are the longest prefix whose removals succeed; an exception is raised exactly when that prefix is shorter than the list, and then the next path's removal failed |
| Processor.ConvertVideos | video_processor/processor.py:38-125 | the targets that existed still exist; the deleted sources are a prefix of the converted ones in conversion order, cut short exactly when a removal raises; every deleted source had a successful attempt and its target path exists |
| Processor.ConvertLoopConvertedOk | video_processor/processor.py:67-105 | throughout the loop every converted source had a successful attempt and its target exists |
| Processor.ConvertVideosDeletesOnlyConverted | video_processor/processor.py:118-120 | no skipped or failed source is deleted; every deleted source had a successful attempt and its target exists; when every removal succeeds all converted sources are deleted; the three counts add up to the sources found |
| Indexing.RawVideosDir | main.py:39 | the raw directory is `video_examples_raw` joined onto the videos directory's parent: its basename is that name and its parent is the videos directory's parent |
| Indexing.RawVideosDirOfPlainName | main.py:39 | for a videos directory without a separator the raw directory is in the working directory |
| Indexing.CollectIndexed | main.py:66-73 | every collected path is `normpath` of some point's text `video_path` |
| Indexing.CollectIndexedComplete | main.py:66-69 | when every point carries a text path, every one of them is collected |
| Indexing.KnownPaths | main.py:56-73 | a failing scroll gives the empty set; every known path is the normalised text `video_path` of a point among the first 1000 stored points, the one page the scroll reads |
| Indexing.KnownPathsComplete | main.py:59-69 | a well-formed store of at most 1000 points has every stored path known |
| Indexing.KnownPathsAbsolute | main.py:66-69 | when the store holds only what indexing writes, every known path is absolute |
| Indexing.Partition | main.py:76-84 | the new videos are the discovered ones that are not (indexed and unforced), and the skipped ones are the rest, both in discovery order |
| Indexing.PartitionSplits | main.py:76-84 | new and skipped together are a permutation of the discovered paths; a path is skipped iff its key is indexed and force is off |
| Indexing.Metadata | main.py:116-120 | the metadata has exactly the keys transcript, frames_count and preview_path, holding the transcript, the frame count and "-" |
| Indexing.ProcessVideo | main.py:90-131 | a video is indexed iff every step succeeds, and then exactly its record is appended under a fresh id; otherwise the store is unchanged; the cleaned audio file is its own once extracted, else the previous video's |
| Indexing.IndexLoopIsolates | main.py:90-131 | each video's status depends only on its own media, whatever happened to the others |
| Indexing.ProcessVideoStore | main.py:111-121 | a success appends one point storing the rewritten path, the video's vectors, its transcript, the number of frames extracted and "-" as preview path; a failure leaves the store alone |
| Indexing.IndexLoop | main.py:89-131 | one status per new video; the loop adds at most one point per video and never removes one; every id it hands out was used by no point stored before the loop |
| Indexing.IndexLoopAppends | main.py:90-131 | the loop keeps the old points in front and adds one point per indexed video |
| Indexing.IndexLoopProvenance | main.py:111-121 | every added point is the record of a new video that succeeded |
| Indexing.IndexLoopStoresSuccesses | main.py:111-121 | every new video that succeeds has its record among the added points |
| Indexing.IndexLoopWellFormed | main.py:111-121 | indexing keeps every stored path a text path under "/app/" |
| Indexing.IndexLoopCleansAudio | main.py:126-131 | every extracted audio file is cleaned, and only those (or the audio file bound before the loop) are |
| Indexing.StaleAudioCleanedAgain | main.py:130-131 | a video that fails before extracting audio cleans the previous video's audio file a second time |
| Indexing.IndexWith | main.py:25-135 | the reported "indexed" count is the number of new videos whether or not they failed; the two counts add up to the discovered videos; with force every video is new and none skipped |
| Indexing.KnownPathsOfPrefix | main.py:59-69 | appending points to a fully read store forgets no known path |
| Indexing.KnownAfterRun | main.py:59-69 | after the loop, the next scroll knows every path known before and the stored form of every video that succeeded |
| Indexing.SecondRunSkips | main.py:79-84 | with a lookup key equal to the stored form, a second run skips everything the first skipped or indexed successfully |
| Indexing.FreshStoreSkipsNothing | main.py:53-84 | a run whose collection is empty, as after the in-memory fallback, skips no video: every discovered path is new |
| Indexing.AsWrittenSecondRunSkipsAppPaths | main.py:80-81 | as written, that cross-run skip holds when every discovered path already starts with "/app/" |
| Indexing.AsWrittenNeverSkipsRelative | main.py:80-81 | as written, a relative discovered path is never skipped against a store that holds only what indexing writes |
| Indexing.DefaultDirReindexesEveryRun | main.py:15 | as written, with the default "./video_examples" the second run treats every video as new again |
| Indexing.FixedSecondRunSkips | main.py:80-81 | with the stored-form lookup, a second run skips everything the first skipped or indexed, wherever the videos directory is |
| SearchApi.RequestWithDefault | api/search_api.py:12-15 | a request without a limit gets limit 10 |
| SearchApi.CachedAnswer | api/search_api.py:66-75 | a cached answer exists iff the lookup found a query scoring at least 0.9, and it is that entry's stored rows verbatim |
| SearchApi.Miss | api/search_api.py:77-90 | a miss that reaches the search caches exactly the rows it returns; an embedder error leaves the cache alone |
| SearchApi.SearchVideos | api/search_api.py:51-94 | a request adds at most one cache entry (for its own query) and removes none; a 500 changes no cache; a failing dense embedder is the only case with no further call |
| SearchApi.SearchHitReplays | api/search_api.py:69-77 | on a hit the stored rows are returned verbatim, the cache is unchanged, and nothing besides the dense embedding and the lookup is called |
| SearchApi.SearchMissRunsHybrid | api/search_api.py:77-90 | on a miss the rows are the hybrid search's, built from the same dense vector used for the lookup and the request's limit; the calls are exactly: dense embedding, cache lookup, CLIP embedding, sparse embedding, one fused query when there is a limit (none otherwise), and the cache write of those rows |
| SearchApi.EmptyLookupIsMiss | api/search_api.py:66-67 | an empty or failed cache lookup is a miss |
| SearchApi.ServerErrorOnlyFromEmbedders | api/search_api.py:93-94 | with working embedders the reply is never a 500, because Qdrant failures are absorbed |
| SearchApi.FailedSearchCachesEmpty | api/search_api.py:83-90 | a failed hybrid search answers no rows and caches those empty rows under the query |
| SearchApi.CacheRepliesFromStoredEntry | api/search_api.py:62-77 | when the lookup only returns entries of the cache it searches, a request answered after just the dense embedding and the lookup is answered with the rows of an entry that is in the cache |
| SearchApi.CachedEmptyIsReplayed | api/search_api.py:62-90 | after a failed hybrid search cached its empty rows, a later query whose lookup finds that entry at a score of at least 0.9 is answered with no rows, makes only the dense-embedding and lookup calls, and leaves the cache unchanged |
| SearchApi.ServeAllAppendOnly | api/search_api.py:90 | over many requests the cache keeps earlier entries in place, grows by at most one per request, and every new entry is one of the requests' queries |
| SearchApi.DefaultLimitQuery | api/search_api.py:15 | with the default limit the fused query fetches 20 candidates per space and asks for 10 results |

## Left out

- Qdrant itself is an oracle, given as a function parameter. Its nearest-neighbour search, its RRF fusion and its scoring are not modelled, and neither are the embedders (embedding/embedder.py). Scores are compared, never computed, so they are `real`s.
- Media work is not modelled. This covers ffmpeg, moviepy audio extraction, cv2 decoding, soundfile writes, Whisper transcription and file deletion. Only their outcomes are modelled, as the fields of `Indexing.Media` and `Processor.ConvAttempt`.
- Indexing.SecondRunSkips: cross-run skipping is proved only when the scroll succeeds and the store plus the discovered videos fit in one scroll page of 1000. Beyond that page the code forgets records, and the same restriction holds for Indexing.AsWrittenSecondRunSkipsAppPaths and Indexing.FixedSecondRunSkips.
- Indexing.SecondRunSkips: the second run is given the first run's store, so the cross-run lemmas (also Indexing.AsWrittenSecondRunSkipsAppPaths and Indexing.FixedSecondRunSkips) assume both runs reach the same persistent remote collection. Each run builds its own `QdrantManager` (main.py:53), and one that ends on the in-memory client starts empty and skips nothing (Indexing.FreshStoreSkipsNothing).
- Processor.ExtractFrames: the float computation `int(fps * frame_interval)` is not modelled; the interval is a natural-number parameter.
- Gateway.NextId: uuid4 is modelled as one more than the largest id in use. That value is fresh by construction, whereas randomness only makes a collision improbable.
- Indexing.KnownPaths: Qdrant's scroll order is abstracted as the order of the store sequence, and the page is its first 1000 points.
- Indexing.IndexWith: the directory listing after conversion is a parameter. The conversion step at main.py:38-47 is modelled separately, by `Processor.ConvertVideos`, including the `os.remove` failure that leaves it early (`Removal.raised`). That exception is caught at main.py:46-47 and only printed; the two steps are not linked through a file system, and the `makedirs` at main.py:33-34 is not modelled.
- Processor.IsVideoName: `str.lower` is modelled on ASCII letters only.
- Processor.Sanitize: the regular expression's `\w` is modelled as ASCII letters, digits and `_`. Python's `\w` on `str` also accepts other Unicode letters and digits.
- Processor.ConvertVideosDeletesOnlyConverted: promises that all converted sources are deleted only when every `os.remove` succeeds. A failing removal raises, ends the deletion loop and skips the summary printout (video_processor/processor.py:118-125); that outcome is `Removal.raised`.
- Processor.ConvertVideos: errors of `os.makedirs` and `os.walk` and the ffmpeg command line itself are not modelled; the walk is a parameter listing (root, file name) pairs.
- Processor.ConvertOne: a failing copy is recorded as a failure with the temporary directory removed. No partial target file is modelled.
- Connection.ConnectSchedule: the sleep duration and the log messages are not modelled. Creating the client and initialising the collections are one success oracle per attempt.
- SearchApi.CacheRepliesFromStoredEntry: that the cache lookup answers only with stored entries is the hypothesis `LookupFromCache`, because the lookup is an oracle parameter; Qdrant's nearest-neighbour search itself is not modelled.
- SearchApi.SearchVideos: a cached payload without a `metadata` key is not modelled. That case would be a 500. Cache entries always carry their rows.
- The following are outside the modelled core:
  - the Streamlit UI (streamlit_app.py);
  - FastAPI wiring (CORS, static files, the root and health endpoints);
  - argparse and uvicorn;
  - `save_preview_image`, whose only call is commented out;
  - `extract_audio`, `transcribe_audio` and `cleanup_temp_file` beyond their outcomes.

## Findings

| source | as written | input that shows it | evidently intended | confidence | as-written member | corrected member |
|---|---|---|---|---|---|---|
| main.py:80-81 | a discovered path is looked up as `normpath(video_path)`, but `index_video` stores the `/app/...` rewrite of it, so a relative path never matches its own record | the default `--videos_dir ./video_examples` with file `x.mp4`: the lookup key is `video_examples/x.mp4`, while the stored path normalises to `/app/video_examples/x.mp4`, so every rerun indexes `x.mp4` again and stores a duplicate | look up the normalised stored form of the path, so that a second run skips every video already indexed | medium, not executed | Indexing.IndexVideosAsWritten (shown by Indexing.DefaultDirReindexesEveryRun and Indexing.AsWrittenNeverSkipsRelative) | Indexing.IndexVideosFixed (proved by Indexing.FixedSecondRunSkips) |

=== FILE: basics.dfy ===
/** Small shared vocabulary: an optional value, string prefix/suffix tests and an
    order-preserving filter over sequences with its partition lemmas. */
module Basics {

  /** A value that may be absent (Python's `None`). */
  datatype Option<T> = None | Some(value: T)

  predicate StartsWith(s: string, prefix: string)
  {
    |prefix| <= |s| && s[..|prefix|] == prefix
  }

  predicate EndsWith(s: string, suffix: string)
  {
    |suffix| <= |s| && s[|s| - |suffix|..] == suffix
  }

  function Min(a: int, b: int): int
  {
    if a <= b then a else b
  }

  /** No element occurs twice. */
  predicate Distinct<T(==)>(s: seq<T>)
  {
    forall i, j :: 0 <= i < j < |s| ==> s[i] != s[j]
  }

  /** The elements of `s` that `keep` accepts, in their original order
      (a Python list comprehension with an `if`). Defined from the back so that
      a loop appending at the end unfolds it one step at a time. */
  function Filter<T(==,!new)>(s: seq<T>, keep: T -> bool): (r: seq<T>)
    ensures |r| <= |s|
    decreases |s|
  {
    if |s| == 0 then []
    else
      var init := Filter(s[..|s| - 1], keep);
      if keep(s[|s| - 1]) then init + [s[|s| - 1]] else init
  }

  /** The filter holds exactly the accepted elements of `s`. */
  lemma {:induction false} FilterMembers<T(!new)>(s: seq<T>, keep: T -> bool)
    ensures forall x :: x in Filter(s, keep) <==> x in s && keep(x)
    decreases |s|
  {
    if |s| > 0 {
      var init := s[..|s| - 1];
      FilterMembers(init, keep);
      assert s == init + [s[|s| - 1]];
    }
  }

  /** Filtering a concatenation filters each part. */
  lemma {:induction false} FilterAppend<T(!new)>(a: seq<T>, b: seq<T>, keep: T -> bool)
    ensures Filter(a + b, keep) == Filter(a, keep) + Filter(b, keep)
    decreases |b|
  {
    if |b| == 0 {
      assert a + b == a;
    } else {
      var b' := b[..|b| - 1];
      assert (a + b)[..|a + b| - 1] == a + b';
      FilterAppend(a, b', keep);
    }
  }

  /** The complement of a predicate. */
  function Not<T>(keep: T -> bool): T -> bool
  {
    x => !keep(x)
  }

  /** A filter and its complement split `s` exactly: together they hold every
      element as often as `s` does, and so as many elements as `s`. */
  lemma {:induction false} FilterPartition<T(!new)>(s: seq<T>, keep: T -> bool)
    ensures multiset(Filter(s, keep)) + multiset(Filter(s, Not(keep))) == multiset(s)
    ensures |Filter(s, keep)| + |Filter(s, Not(keep))| == |s|
  {
    FilterSplitsMultiset(s, keep);
    assert |multiset(Filter(s, keep))| == |Filter(s, keep)|;
    assert |multiset(Filter(s, Not(keep)))| == |Filter(s, Not(keep))|;
    assert |multiset(s)| == |s|;
  }

  lemma {:induction false} FilterSplitsMultiset<T(!new)>(s: seq<T>, keep: T -> bool)
    ensures multiset(Filter(s, keep)) + multiset(Filter(s, Not(keep))) == multiset(s)
    decreases |s|
  {
    if |s| > 0 {
      var init := s[..|s| - 1];
      var x := s[|s| - 1];
      FilterSplitsMultiset(init, keep);
      assert s == init + [x];
      assert multiset(s) == multiset(init) + multiset{x};
      var a, b := Filter(init, keep), Filter(init, Not(keep));
      assert multiset(a) + multiset(b) == multiset(init);
      assert Not(keep)(x) == !keep(x);
      if keep(x) {
        assert Filter(s, keep) == Filter(init, keep) + [x];
        assert Filter(s, Not(keep)) == Filter(init, Not(keep));
        calc {
          multiset(Filter(s, keep)) + multiset(Filter(s, Not(keep)));
          multiset(a + [x]) + multiset(b);
          multiset(a) + multiset{x} + multiset(b);
        }
      } else {
        assert Filter(s, keep) == Filter(init, keep);
        assert Filter(s, Not(keep)) == Filter(init, Not(keep)) + [x];
        calc {
          multiset(Filter(s, keep)) + multiset(Filter(s, Not(keep)));
          multiset(a) + multiset(b + [x]);
          multiset(a) + multiset(b) + multiset{x};
        }
      }
    }
  }

  /** A filter that accepts every element keeps everything. */
  lemma {:induction false} FilterAll<T(!new)>(s: seq<T>, keep: T -> bool)
    requires forall x :: x in s ==> keep(x)
    ensures Filter(s, keep) == s
    ensures Filter(s, Not(keep)) == []
    decreases |s|
  {
    if |s| > 0 {
      var init := s[..|s| - 1];
      assert forall x :: x in init ==> x in s;
      FilterAll(init, keep);
      assert !Not(keep)(s[|s| - 1]);
      assert s == init + [s[|s| - 1]];
    }
  }
}

=== FILE: config.dfy ===
/** The configuration constants the core reads (config.py), plus the literal
    constants written inline in the gateway, the indexing entry point and the
    media helpers. */
module Config {

  /** Frames kept per video by the sampler. */
  const MaxFramesPerVideo: nat := 30

  /** Name of the video collection. */
  const QdrantCollection: string := "video_search"

  /** Name of the semantic-cache collection (written inline in the gateway). */
  const CacheCollection: string := "semantic_cache_queries"

  const VisualVectorSize: nat := 512
  const TextVectorSize: nat := 1024

  /** Width of the cache collection's one dense vector (written inline). */
  const CacheVectorSize: nat := 1024

  /** Default result count of a search request. */
  const SearchLimit: int := 10

  /** Initial value of the cache-miss flag in the search handler. */
  const CacheMark: bool := false

  /** Similarity at or above which a cached answer is replayed. */
  const ThresholdSemantic: real := 0.9

  /** Page size of the one scroll that lists already-indexed points. */
  const ScrollLimit: nat := 1000

  /** Default connection attempts of the gateway constructor. */
  const MaxRetries: int := 3

  /** The directory the indexing command reads by default. */
  const DefaultVideosDir: string := "./video_examples"

  /** Prefix every stored video path is rewritten into. */
  const AppRoot: string := "/app"

  /** Placeholder stored as every record's preview path. */
  const NoPreview: string := "-"
}

=== FILE: connection.dfy ===
/** The connect / retry / in-memory-fallback schedule of the gateway constructor
    (`QdrantManager.__init__`), as an explicit state machine. Whether an attempt
    succeeds (connecting and initialising the collections) is an oracle. */
module Connection {

  datatype Target = Remote | InMemory

  /** What the constructor does, in order. */
  datatype Event =
    | Attempt(n: nat, target: Target, ok: bool)  // connect to `target`, then initialise collections
    | Sleep(n: nat)                               // wait `retry_delay` after failed attempt `n`
    | Fallback(ok: bool)                          // fresh in-memory client after the last failure

  /** The client the constructor leaves behind: connected, never assigned (the
      attempt range was empty), or the fallback's own initialisation raised. */
  datatype Client = Connected(target: Target) | Unset | Raised

  datatype Phase = Trying(attempt: nat) | Done(client: Client)

  datatype Connection = Connection(client: Client, events: seq<Event>)

  /** Attempts before the last go to the remote host; the last is in-memory. */
  function TargetOf(attempt: nat, maxRetries: int): Target
  {
    if attempt == maxRetries then InMemory else Remote
  }

  predicate Succeeds(n: nat, maxRetries: int, ok: (nat, Target) -> bool)
  {
    ok(n, TargetOf(n, maxRetries))
  }

  /** One pass of the loop body for attempt `attempt`. */
  function Step(attempt: nat, maxRetries: int, ok: (nat, Target) -> bool, fallbackOk: bool): (r: (Phase, seq<Event>))
    requires 1 <= attempt <= maxRetries
    ensures r.0.Trying? ==> r.0.attempt == attempt + 1
  {
    var t := TargetOf(attempt, maxRetries);
    if ok(attempt, t) then (Done(Connected(t)), [Attempt(attempt, t, true)])
    else if attempt < maxRetries then (Trying(attempt + 1), [Attempt(attempt, t, false), Sleep(attempt)])
    else (Done(if fallbackOk then Connected(InMemory) else Raised), [Attempt(attempt, t, false), Fallback(fallbackOk)])
  }

  /** The loop from `attempt` on. */
  function Run(attempt: nat, maxRetries: int, ok: (nat, Target) -> bool, fallbackOk: bool): Connection
    requires attempt >= 1
    decreases maxRetries - attempt
  {
    if attempt > maxRetries then Connection(Unset, [])
    else
      var step := Step(attempt, maxRetries, ok, fallbackOk);
      match step.0
      case Done(c) => Connection(c, step.1)
      case Trying(next) =>
        var rest := Run(next, maxRetries, ok, fallbackOk);
        Connection(rest.client, step.1 + rest.events)
  }

  /** `QdrantManager(max_retries, ...)`: attempts 1 .. max_retries. */
  function Connect(maxRetries: int, ok: (nat, Target) -> bool, fallbackOk: bool): Connection
  {
    Run(1, maxRetries, ok, fallbackOk)
  }

  /** Attempts are numbered from `lo` to `maxRetries` and aimed at `TargetOf`. */
  predicate AttemptsScheduled(es: seq<Event>, lo: nat, maxRetries: int)
  {
    forall i :: 0 <= i < |es| && es[i].Attempt? ==>
      lo <= es[i].n <= maxRetries && es[i].target == TargetOf(es[i].n, maxRetries)
  }

  /** Every attempt is numbered within range and aimed where the schedule says:
      the remote host before the last attempt, the in-memory store at it. */
  lemma {:induction false} RunTargets(attempt: nat, maxRetries: int, ok: (nat, Target) -> bool, fallbackOk: bool)
    requires attempt >= 1
    ensures AttemptsScheduled(Run(attempt, maxRetries, ok, fallbackOk).events, attempt, maxRetries)
    decreases maxRetries - attempt
  {
    if attempt <= maxRetries {
      var step := Step(attempt, maxRetries, ok, fallbackOk);
      if step.0.Trying? {
        RunTargets(attempt + 1, maxRetries, ok, fallbackOk);
        var rest := Run(attempt + 1, maxRetries, ok, fallbackOk).events;
        assert step.1 == [Attempt(attempt, TargetOf(attempt, maxRetries), false), Sleep(attempt)];
        var es := step.1 + rest;
        assert Run(attempt, maxRetries, ok, fallbackOk).events == es;
        forall i | 0 <= i < |es| && es[i].Attempt?
          ensures attempt <= es[i].n <= maxRetries && es[i].target == TargetOf(es[i].n, maxRetries)
        {
          if i >= 2 {
            assert es[i] == rest[i - 2];
            assert rest[i - 2].Attempt?;
            assert attempt + 1 <= rest[i - 2].n;
          } else {
            assert i == 0;
            assert es[0] == Attempt(attempt, TargetOf(attempt, maxRetries), false);
          }
        }
      }
    }
  }

  /** The constructor sleeps only right after a failed attempt that is not the
      last, and after every such attempt. */
  lemma {:induction false} RunSleeps(attempt: nat, maxRetries: int, ok: (nat, Target) -> bool, fallbackOk: bool)
    requires attempt >= 1
    ensures var es := Run(attempt, maxRetries, ok, fallbackOk).events;
            forall i :: 0 <= i < |es| && es[i].Sleep? ==>
              0 < i && es[i - 1] == Attempt(es[i].n, Remote, false) && es[i].n < maxRetries
    ensures var es := Run(attempt, maxRetries, ok, fallbackOk).events;
            forall i :: 0 <= i < |es| && es[i].Attempt? && !es[i].ok && es[i].n < maxRetries ==>
              i + 1 < |es| && es[i + 1] == Sleep(es[i].n)
    decreases maxRetries - attempt
  {
    if attempt <= maxRetries {
      var step := Step(attempt, maxRetries, ok, fallbackOk);
      if step.0.Trying? {
        RunSleeps(attempt + 1, maxRetries, ok, fallbackOk);
        RunTargets(attempt + 1, maxRetries, ok, fallbackOk);
        var rest := Run(attempt + 1, maxRetries, ok, fallbackOk).events;
        assert step.1 == [Attempt(attempt, Remote, false), Sleep(attempt)];
        var es := step.1 + rest;
        assert Run(attempt, maxRetries, ok, fallbackOk).events == es;
        RunStartsWithAttempt(attempt + 1, maxRetries, ok, fallbackOk);
        forall i | 0 <= i < |es| && es[i].Sleep?
          ensures 0 < i && es[i - 1] == Attempt(es[i].n, Remote, false) && es[i].n < maxRetries
        {
          if i >= 3 {
            assert es[i] == rest[i - 2] && es[i - 1] == rest[i - 3];
          }
        }
        forall i | 0 <= i < |es| && es[i].Attempt? && !es[i].ok && es[i].n < maxRetries
          ensures i + 1 < |es| && es[i + 1] == Sleep(es[i].n)
        {
          if i >= 2 {
            assert es[i] == rest[i - 2];
            assert es[i + 1] == rest[i - 1];
          }
        }
      }
    }
  }

  /** Each attempt's label is what the oracle said about it, and a successful
      attempt is the last event: the loop breaks right after it. */
  predicate AttemptsTruthful(es: seq<Event>, maxRetries: int, ok: (nat, Target) -> bool)
  {
    forall i :: 0 <= i < |es| && es[i].Attempt? ==>
      es[i].ok == Succeeds(es[i].n, maxRetries, ok) && (es[i].ok ==> i == |es| - 1)
  }

  /** The trace reports every attempt's outcome as the oracle decided it, and
      nothing follows a successful attempt. */
  lemma {:induction false} RunAttemptsTruthful(attempt: nat, maxRetries: int, ok: (nat, Target) -> bool, fallbackOk: bool)
    requires attempt >= 1
    ensures AttemptsTruthful(Run(attempt, maxRetries, ok, fallbackOk).events, maxRetries, ok)
    decreases maxRetries - attempt
  {
    if attempt <= maxRetries {
      var step := Step(attempt, maxRetries, ok, fallbackOk);
      if step.0.Trying? {
        RunAttemptsTruthful(attempt + 1, maxRetries, ok, fallbackOk);
        var rest := Run(attempt + 1, maxRetries, ok, fallbackOk).events;
        assert step.1 == [Attempt(attempt, Remote, false), Sleep(attempt)];
        assert !Succeeds(attempt, maxRetries, ok);
        var es := step.1 + rest;
        assert Run(attempt, maxRetries, ok, fallbackOk).events == es;
        forall i | 0 <= i < |es| && es[i].Attempt?
          ensures es[i].ok == Succeeds(es[i].n, maxRetries, ok) && (es[i].ok ==> i == |es| - 1)
        {
          if i >= 2 {
            assert es[i] == rest[i - 2];
          }
        }
      }
    }
  }

  /** A loop that runs at all begins with the attempt it was started at. */
  lemma RunStartsWithAttempt(attempt: nat, maxRetries: int, ok: (nat, Target) -> bool, fallbackOk: bool)
    requires 1 <= attempt <= maxRetries
    ensures var es := Run(attempt, maxRetries, ok, fallbackOk).events;
            |es| > 0 && es[0].Attempt? && es[0].n == attempt
  {
  }

  /** Which client the loop ends with: the first attempt that succeeds decides
      it; if none does, the in-memory fallback (or its exception); with an
      empty attempt range nothing is assigned. */
  lemma {:induction false} RunOutcome(attempt: nat, maxRetries: int, ok: (nat, Target) -> bool, fallbackOk: bool)
    requires attempt >= 1
    ensures var c := Run(attempt, maxRetries, ok, fallbackOk).client;
            && (attempt > maxRetries ==> c == Unset)
            && (attempt <= maxRetries ==> c != Unset)
            && (c == Connected(Remote) <==> exists n :: attempt <= n < maxRetries && Succeeds(n, maxRetries, ok))
            && ((forall n :: attempt <= n <= maxRetries ==> !Succeeds(n, maxRetries, ok)) && attempt <= maxRetries ==>
                  c == (if fallbackOk then Connected(InMemory) else Raised))
            && (((forall n :: attempt <= n < maxRetries ==> !Succeeds(n, maxRetries, ok))
                 && attempt <= maxRetries && Succeeds(maxRetries, maxRetries, ok)) ==>
                  c == Connected(InMemory))
    decreases maxRetries - attempt
  {
    if attempt <= maxRetries {
      var step := Step(attempt, maxRetries, ok, fallbackOk);
      if step.0.Trying? {
        RunOutcome(attempt + 1, maxRetries, ok, fallbackOk);
        assert !Succeeds(attempt, maxRetries, ok);
      } else if Succeeds(attempt, maxRetries, ok) {
        assert Run(attempt, maxRetries, ok, fallbackOk).client == Connected(TargetOf(attempt, maxRetries));
      }
    }
  }

  /** The whole constructor: the schedule and outcome above from attempt 1. */
  lemma ConnectSchedule(maxRetries: int, ok: (nat, Target) -> bool, fallbackOk: bool)
    ensures var c := Connect(maxRetries, ok, fallbackOk);
            && (forall i :: 0 <= i < |c.events| && c.events[i].Attempt? ==>
                  1 <= c.events[i].n <= maxRetries
                  && (c.events[i].target == Remote <==> c.events[i].n < maxRetries))
            && (forall i :: 0 <= i < |c.events| && c.events[i].Sleep? ==>
                  0 < i && c.events[i - 1] == Attempt(c.events[i].n, Remote, false) && c.events[i].n < maxRetries)
            && (forall i :: 0 <= i < |c.events| && c.events[i].Attempt? && !c.events[i].ok && c.events[i].n < maxRetries ==>
                  i + 1 < |c.events| && c.events[i + 1] == Sleep(c.events[i].n))
            && AttemptsTruthful(c.events, maxRetries, ok)
            && (maxRetries < 1 <==> c.client == Unset)
            && (c.client == Connected(Remote) <==> exists n :: 1 <= n < maxRetries && Succeeds(n, maxRetries, ok))
            && ((forall n :: 1 <= n <= maxRetries ==> !Succeeds(n, maxRetries, ok)) && maxRetries >= 1 ==>
                  c.client == (if fallbackOk then Connected(InMemory) else Raised))
            && (((forall n :: 1 <= n < maxRetries ==> !Succeeds(n, maxRetries, ok))
                 && maxRetries >= 1 && Succeeds(maxRetries, maxRetries, ok)) ==>
                  c.client == Connected(InMemory))
  {
    RunTargets(1, maxRetries, ok, fallbackOk);
    RunSleeps(1, maxRetries, ok, fallbackOk);
    RunAttemptsTruthful(1, maxRetries, ok, fallbackOk);
    RunOutcome(1, maxRetries, ok, fallbackOk);
  }

  /** With the default three attempts and an unreachable host, the constructor
      tries the host twice, sleeping after each, then uses the in-memory store. */
  lemma DefaultScheduleUnreachableHost(fallbackOk: bool)
    ensures var c := Connect(3, (n: nat, t: Target) => t == InMemory, fallbackOk);
            c.events == [Attempt(1, Remote, false), Sleep(1), Attempt(2, Remote, false), Sleep(2), Attempt(3, InMemory, true)]
            && c.client == Connected(InMemory)
  {
  }
}

=== FILE: gateway.dfy ===
/** The vector-store gateway (vectordb/qdrant_client.py): collection set-up, the
    stored-path rewrite and payload of `index_video`, the append-only semantic
    cache, the cache lookup and the request/response mapping of the fused
    hybrid search. Qdrant itself is an oracle: its answers are parameters. */
module Gateway {
  import opened Basics
  import opened PosixPath
  import Config

  // ---------------------------------------------------------------------------
  // Stored data

  /** A payload value: the core only ever stores strings and integers. */
  datatype Value = Text(s: string) | Int(n: int)

  type Payload = map<string, Value>

  type Vec = seq<real>

  datatype SparseVec = SparseVec(indices: seq<nat>, values: seq<real>)

  /** The three named vector spaces of a video point. */
  datatype Vectors = Vectors(visual: Vec, textDense: Vec, textSparse: SparseVec)

  /** A point of the video collection. Qdrant's uuid4 ids are modelled as naturals. */
  datatype VideoPoint = VideoPoint(id: nat, vectors: Vectors, payload: Payload)

  /** One row of a search answer, as the API returns it. */
  datatype SearchResult = SearchResult(
    id: nat, score: real,
    videoName: Value, videoPath: Value, transcript: Value,
    query: string, previewPath: Value)

  /** A point of the cache collection: a past query, its dense vector and the
      result list it was answered with. */
  datatype CacheEntry = CacheEntry(id: nat, queryText: string, vector: Vec, results: seq<SearchResult>)

  /** What a Qdrant call gives back: an exception, or the list of points. */
  datatype Answer<T> = Raised | Returned(points: seq<T>)

  const VideoPathKey: string := "video_path"
  const VideoNameKey: string := "video_name"
  const TranscriptKey: string := "transcript"
  const PreviewPathKey: string := "preview_path"
  const FramesCountKey: string := "frames_count"

  /** Stored paths are rewritten to live under this prefix. */
  const AppPrefix: string := Config.AppRoot + "/"

  function Ids(store: seq<VideoPoint>): set<nat>
  {
    set p | p in store :: p.id
  }

  function CacheIds(cache: seq<CacheEntry>): set<nat>
  {
    set e | e in cache :: e.id
  }

  function MaxId(store: seq<VideoPoint>): (m: nat)
    ensures forall p :: p in store ==> p.id <= m
    decreases |store|
  {
    if |store| == 0 then 0
    else
      var m := MaxId(store[1..]);
      assert forall p :: p in store ==> p == store[0] || p in store[1..];
      if store[0].id > m then store[0].id else m
  }

  function MaxCacheId(cache: seq<CacheEntry>): (m: nat)
    ensures forall e :: e in cache ==> e.id <= m
    decreases |cache|
  {
    if |cache| == 0 then 0
    else
      var m := MaxCacheId(cache[1..]);
      assert forall e :: e in cache ==> e == cache[0] || e in cache[1..];
      if cache[0].id > m then cache[0].id else m
  }

  /** `uuid.uuid4()` stands in as an id no existing point carries. */
  function NextId(store: seq<VideoPoint>): (id: nat)
    ensures id !in Ids(store)
  {
    MaxId(store) + 1
  }

  function NextCacheId(cache: seq<CacheEntry>): (id: nat)
    ensures id !in CacheIds(cache)
  {
    MaxCacheId(cache) + 1
  }

  // ---------------------------------------------------------------------------
  // Collections (`_initialize_collections`)

  /** The vector configuration a collection is created with. */
  datatype Schema =
    | VideoSchema(visualSize: nat, textDenseSize: nat, sparseSpace: string)
    | CacheSchema(denseSize: nat)

  /** The collections after the call and the create requests it issued, in order;
      `ok` is false when listing or a creation raised (the error is re-raised). */
  datatype InitResult = InitResult(ok: bool, collections: map<string, Schema>, requested: seq<string>)

  const VideoSchemaConfig: Schema := VideoSchema(Config.VisualVectorSize, Config.TextVectorSize, "text_sparse")
  const CacheSchemaConfig: Schema := CacheSchema(Config.CacheVectorSize)

  /** Create each of the two collections that the listing does not name.
      `listOk` is whether `get_collections` answered; `createOk(name)` whether
      creating that collection succeeds. */
  function InitCollections(existing: map<string, Schema>, listOk: bool, createOk: string -> bool): (r: InitResult)
    ensures r.ok ==> Config.QdrantCollection in r.collections && Config.CacheCollection in r.collections
    ensures forall k :: k in existing ==> k in r.collections && r.collections[k] == existing[k]
    ensures forall k :: k in r.collections ==> k in existing || k == Config.QdrantCollection || k == Config.CacheCollection
    ensures forall k :: k in r.requested ==> k !in existing
    ensures r.ok ==> (forall k :: k in r.requested <==> k !in existing && (k == Config.QdrantCollection || k == Config.CacheCollection))
    ensures r.ok <==> (&& listOk
                       && (Config.QdrantCollection in existing || createOk(Config.QdrantCollection))
                       && (Config.CacheCollection in existing || createOk(Config.CacheCollection)))
  {
    var video := Config.QdrantCollection;
    var cache := Config.CacheCollection;
    if !listOk then InitResult(false, existing, [])
    else
      var afterVideo :=
        if video in existing then InitResult(true, existing, [])
        else if createOk(video) then InitResult(true, existing[video := VideoSchemaConfig], [video])
        else InitResult(false, existing, [video]);
      if !afterVideo.ok then afterVideo
      else if cache in existing then afterVideo
      else if createOk(cache) then InitResult(true, afterVideo.collections[cache := CacheSchemaConfig], afterVideo.requested + [cache])
      else InitResult(false, afterVideo.collections, afterVideo.requested + [cache])
  }

  /** A successful set-up leaves nothing to do: a second call creates nothing
      and changes nothing, whatever creation would do. */
  lemma InitCollectionsIdempotent(existing: map<string, Schema>, createOk: string -> bool, createOk2: string -> bool)
    requires InitCollections(existing, true, createOk).ok
    ensures var once := InitCollections(existing, true, createOk);
            InitCollections(once.collections, true, createOk2) == InitResult(true, once.collections, [])
  {
  }

  // ---------------------------------------------------------------------------
  // `index_video`

  /** The path actually stored: kept when it already starts with "/app/", an
      absolute path collapses to "/app/" + its basename, a relative path is
      put under "/app/". */
  function StoredPath(videoPath: string): (r: string)
    ensures StartsWith(r, AppPrefix)
    ensures StartsWith(videoPath, AppPrefix) ==> r == videoPath
    ensures Basename(r) == Basename(videoPath)
    ensures !IsAbs(videoPath) ==> r == AppPrefix + videoPath
  {
    if StartsWith(videoPath, AppPrefix) then videoPath
    else if IsAbs(videoPath) then
      var b := Basename(videoPath);
      BasenameNotAbs(videoPath);
      JoinUnderApp(b);
      BasenameOfName(b);
      Join(Config.AppRoot, b)
    else
      JoinUnderApp(videoPath);
      Join(Config.AppRoot, videoPath)
  }

  /** A basename never starts with the separator. */
  lemma BasenameNotAbs(p: string)
    ensures !IsAbs(Basename(p))
  {
    var b := Basename(p);
    if |b| > 0 {
      assert b[0] in b;
    }
  }

  /** Joining a relative path onto "/app" puts it right after the prefix. */
  lemma JoinUnderApp(b: string)
    requires !IsAbs(b)
    ensures Join(Config.AppRoot, b) == AppPrefix + b
    ensures StartsWith(AppPrefix + b, AppPrefix)
    ensures Basename(AppPrefix + b) == Basename(b)
  {
    assert (AppPrefix + b)[..|AppPrefix|] == AppPrefix;
    BasenameAfterSep(AppPrefix, b);
  }

  /** Rewriting is idempotent: a stored path is stored unchanged. */
  lemma StoredPathIdempotent(videoPath: string)
    ensures StoredPath(StoredPath(videoPath)) == StoredPath(videoPath)
  {
  }

  /** An absolute path outside "/app" keeps only its file name, so two different
      directories holding equally named files map to one stored path. */
  lemma StoredPathCollapsesAbsolute(p: string, q: string)
    requires IsAbs(p) && IsAbs(q)
    requires !StartsWith(p, AppPrefix) && !StartsWith(q, AppPrefix)
    requires Basename(p) == Basename(q)
    ensures StoredPath(p) == StoredPath(q) == AppPrefix + Basename(p)
  {
    BasenameNotAbs(p);
    JoinUnderApp(Basename(p));
  }

  /** "/a/x.mp4" lies outside "/app/" and is stored under its file name. */
  lemma StoredPathOfSampleA()
    ensures StoredPath("/a/x.mp4") == "/app/x.mp4"
  {
    assert Basename("/a/x.mp4") == "x.mp4";
    assert !StartsWith("/a/x.mp4", AppPrefix);
    assert Join("/app", "x.mp4") == "/app/x.mp4";
  }

  /** "/b/x.mp4" likewise. */
  lemma StoredPathOfSampleB()
    ensures StoredPath("/b/x.mp4") == "/app/x.mp4"
  {
    assert Basename("/b/x.mp4") == "x.mp4";
    assert !StartsWith("/b/x.mp4", AppPrefix);
    assert Join("/app", "x.mp4") == "/app/x.mp4";
  }

  /** A concrete collision: "/a/x.mp4" and "/b/x.mp4" are both stored as "/app/x.mp4". */
  lemma StoredPathCollisionExample()
    ensures "/a/x.mp4" != "/b/x.mp4"
    ensures StoredPath("/a/x.mp4") == StoredPath("/b/x.mp4") == "/app/x.mp4"
  {
    StoredPathOfSampleA();
    StoredPathOfSampleB();
  }

  /** `metadata.update({video_path, video_name})`: every caller key survives,
      only the two path keys are set or overwritten. */
  function MergePayload(metadata: Payload, storedPath: string, videoName: string): (r: Payload)
    ensures r.Keys == metadata.Keys + {VideoPathKey, VideoNameKey}
    ensures r[VideoPathKey] == Text(storedPath) && r[VideoNameKey] == Text(videoName)
    ensures forall k :: k in metadata && k != VideoPathKey && k != VideoNameKey ==> r[k] == metadata[k]
  {
    metadata[VideoPathKey := Text(storedPath)][VideoNameKey := Text(videoName)]
  }

  /** `client.upsert` of one point: the point with the same id is replaced,
      otherwise the point is added; no other point changes. */
  function Upsert(store: seq<VideoPoint>, p: VideoPoint): (r: seq<VideoPoint>)
    ensures p in r
    ensures |r| == |store| + (if p.id in Ids(store) then 0 else 1)
    ensures forall i :: 0 <= i < |store| && store[i].id != p.id ==> r[i] == store[i]
    ensures forall q :: q in r ==> q == p || (q in store && q.id != p.id)
  {
    if p.id in Ids(store) then
      var r := seq(|store|, i requires 0 <= i < |store| => if store[i].id == p.id then p else store[i]);
      var k :| 0 <= k < |store| && store[k].id == p.id;
      assert r[k] == p;
      r
    else store + [p]
  }

  /** The point `index_video` writes for `videoPath`. */
  function VideoRecord(id: nat, videoPath: string, vectors: Vectors, metadata: Payload): VideoPoint
  {
    VideoPoint(id, vectors, MergePayload(metadata, StoredPath(videoPath), Basename(videoPath)))
  }

  datatype IndexedVideo = IndexedVideo(id: nat, store: seq<VideoPoint>)

  /** `index_video`: mint a fresh id and upsert one point. Since the id is fresh
      the upsert only ever appends; an existing record is never replaced. */
  function IndexVideo(store: seq<VideoPoint>, videoPath: string, vectors: Vectors, metadata: Payload): (r: IndexedVideo)
    ensures r.id !in Ids(store)
    ensures r.store == store + [VideoRecord(r.id, videoPath, vectors, metadata)]
  {
    var id := NextId(store);
    IndexedVideo(id, Upsert(store, VideoRecord(id, videoPath, vectors, metadata)))
  }

  /** The stored record names the file it came from: the basename of the
      stored path is the stored name, which is the basename of the input. */
  lemma IndexVideoNamesFile(store: seq<VideoPoint>, videoPath: string, vectors: Vectors, metadata: Payload)
    ensures var p := IndexVideo(store, videoPath, vectors, metadata).store[|store|];
            && p.payload[VideoPathKey] == Text(StoredPath(videoPath))
            && p.payload[VideoNameKey] == Text(Basename(StoredPath(videoPath)))
            && p.payload[VideoNameKey] == Text(Basename(videoPath))
  {
  }

  // ---------------------------------------------------------------------------
  // Semantic cache (`upsert_semantic_cache`, `semantic_search`)

  /** `upsert_semantic_cache`: append one entry under a fresh id; if the write
      raises, the error is swallowed and the cache is unchanged. */
  function UpsertSemanticCache(cache: seq<CacheEntry>, queryText: string, vector: Vec, results: seq<SearchResult>, writeOk: bool): (r: seq<CacheEntry>)
    ensures writeOk ==> |r| == |cache| + 1 && r[..|cache|] == cache
    ensures writeOk ==> (&& r[|cache|].id !in CacheIds(cache)
                         && r[|cache|].queryText == queryText
                         && r[|cache|].vector == vector
                         && r[|cache|].results == results)
    ensures !writeOk ==> r == cache
  {
    if writeOk then cache + [CacheEntry(NextCacheId(cache), queryText, vector, results)] else cache
  }

  /** A scored cache point returned by the nearest-neighbour lookup. */
  datatype CacheHit = CacheHit(score: real, entry: CacheEntry)

  /** The one-nearest query `semantic_search` sends to the cache collection. */
  datatype CacheQuery = CacheQuery(collection: string, using: string, vector: Vec, limit: int)

  function CacheQueryFor(v: Vec): (q: CacheQuery)
    ensures q.collection == Config.CacheCollection && q.using == "text_dense_vector"
    ensures q.vector == v && q.limit == 1
  {
    CacheQuery(Config.CacheCollection, "text_dense_vector", v, 1)
  }

  /** `semantic_search`: Qdrant's answer to the top-1 cache query, or [] when
      the call raises. */
  function SemanticSearch(store: CacheQuery -> Answer<CacheHit>, v: Vec): (r: seq<CacheHit>)
    ensures store(CacheQueryFor(v)).Raised? ==> r == []
    ensures store(CacheQueryFor(v)).Returned? ==> r == store(CacheQueryFor(v)).points
  {
    match store(CacheQueryFor(v))
    case Raised => []
    case Returned(points) => points
  }

  // ---------------------------------------------------------------------------
  // Fused hybrid search (`hybrid_search_dbsf`)

  datatype QueryVector = Dense(v: Vec) | Sparse(sv: SparseVec)
  datatype Prefetch = Prefetch(query: QueryVector, using: string, limit: int)
  datatype Fusion = RRF
  datatype HybridQuery = HybridQuery(collection: string, prefetch: seq<Prefetch>, fusion: Fusion, limit: int)

  /** A point of the fused answer. */
  datatype ScoredPoint = ScoredPoint(id: nat, score: real, payload: Payload)

  /** The fused request: one over-fetching prefetch per vector space, each of
      `2 * limit` candidates, fused by reciprocal-rank fusion down to `limit`. */
  function HybridQueryFor(visual: Vec, dense: Vec, sparse: SparseVec, limit: int): (q: HybridQuery)
    ensures q.collection == Config.QdrantCollection && q.fusion == RRF && q.limit == limit
    ensures |q.prefetch| == 3
    ensures forall i :: 0 <= i < 3 ==> q.prefetch[i].limit == 2 * limit
    ensures q.prefetch[0].using == "visual" && q.prefetch[0].query == Dense(visual)
    ensures q.prefetch[1].using == "text_dense" && q.prefetch[1].query == Dense(dense)
    ensures q.prefetch[2].using == "text_sparse" && q.prefetch[2].query == Sparse(sparse)
  {
    HybridQuery(Config.QdrantCollection,
      [Prefetch(Dense(visual), "visual", limit * 2),
       Prefetch(Dense(dense), "text_dense", limit * 2),
       Prefetch(Sparse(sparse), "text_sparse", limit * 2)],
      RRF, limit)
  }

  predicate HasResultKeys(payload: Payload)
  {
    VideoNameKey in payload && VideoPathKey in payload && TranscriptKey in payload && PreviewPathKey in payload
  }

  /** One answer point as a result row tagged with the query text. */
  function ToResult(queryText: string, p: ScoredPoint): SearchResult
    requires HasResultKeys(p.payload)
  {
    SearchResult(p.id, p.score, p.payload[VideoNameKey], p.payload[VideoPathKey],
                 p.payload[TranscriptKey], queryText, p.payload[PreviewPathKey])
  }

  /** `row` is the result row of point `p`: its id and score, the four payload
      fields, and the query text. */
  predicate RowOf(row: SearchResult, queryText: string, p: ScoredPoint)
  {
    && HasResultKeys(p.payload)
    && row.id == p.id && row.score == p.score && row.query == queryText
    && row.videoName == p.payload[VideoNameKey] && row.videoPath == p.payload[VideoPathKey]
    && row.transcript == p.payload[TranscriptKey] && row.previewPath == p.payload[PreviewPathKey]
  }

  /** Every point carries the four payload keys a result row reads. */
  predicate AllHaveResultKeys(points: seq<ScoredPoint>)
  {
    forall i :: 0 <= i < |points| ==> HasResultKeys(points[i].payload)
  }

  /** The result loop: `None` as soon as a point lacks a payload key (the
      `KeyError` that makes the whole search answer []). */
  function ProjectAll(queryText: string, points: seq<ScoredPoint>): (r: Option<seq<SearchResult>>)
    ensures r.Some? <==> AllHaveResultKeys(points)
    ensures r.Some? ==> |r.value| == |points|
    ensures r.Some? ==> forall i :: 0 <= i < |points| ==> RowOf(r.value[i], queryText, points[i])
    decreases |points|
  {
    if |points| == 0 then Some([])
    else if !HasResultKeys(points[0].payload) then None
    else
      match ProjectAll(queryText, points[1..])
      case None => None
      case Some(rest) => Some([ToResult(queryText, points[0])] + rest)
  }

  /** `hybrid_search_dbsf`: [] when `limit` is None (the `None * 2` TypeError),
      when Qdrant raises, or when an answer point lacks a payload key;
      otherwise one row per answer point, in Qdrant's order, so never more
      rows than the limit when Qdrant honours it. */
  function HybridSearch(queryText: string, visual: Vec, dense: Vec, sparse: SparseVec,
                        limit: Option<int>, store: HybridQuery -> Answer<ScoredPoint>): (r: seq<SearchResult>)
    ensures limit.None? ==> r == []
    ensures limit.Some? && store(HybridQueryFor(visual, dense, sparse, limit.value)).Raised? ==> r == []
    ensures limit.Some? ==>
              var answer := store(HybridQueryFor(visual, dense, sparse, limit.value));
              answer.Returned? && !AllHaveResultKeys(answer.points) ==> r == []
    ensures limit.Some? ==>
              var answer := store(HybridQueryFor(visual, dense, sparse, limit.value));
              answer.Returned? && AllHaveResultKeys(answer.points) ==>
                && |r| == |answer.points|
                && forall i :: 0 <= i < |r| ==> RowOf(r[i], queryText, answer.points[i])
    ensures limit.Some? ==>
              var answer := store(HybridQueryFor(visual, dense, sparse, limit.value));
              answer.Returned? && |answer.points| <= limit.value ==> |r| <= limit.value
    ensures r != [] ==> (limit.Some? &&
              var answer := store(HybridQueryFor(visual, dense, sparse, limit.value));
              && answer.Returned?
              && |r| == |answer.points|
              && forall i :: 0 <= i < |r| ==> RowOf(r[i], queryText, answer.points[i]))
  {
    match limit
    case None => []
    case Some(l) =>
      match store(HybridQueryFor(visual, dense, sparse, l))
      case Raised => []
      case Returned(points) =>
        match ProjectAll(queryText, points)
        case None => []
        case Some(rows) => rows
  }
}

=== FILE: indexing.dfy ===
/** The indexing command (`index_videos` in main.py): discover the videos,
    read the paths already in the collection, split the videos into new and
    already indexed ones, and process every new video in isolation. Decoding,
    transcription, the embedders and Qdrant are oracles: a `Media` value says
    what each of them yields for one video. */
module Indexing {
  import opened Basics
  import opened PosixPath
  import opened Gateway
  import opened Processor
  import Config

  // ---------------------------------------------------------------------------
  // Inputs

  /** What the outside world yields while one video is processed. */
  datatype Media = Media(
    readable: nat,       // frames the decoder delivers
    interval: nat,       // `int(fps * frame_interval)`
    audioRaises: bool,   // `extract_audio` raises (its own fallback write failed)
    audioPath: string,   // the temporary WAV path it returns otherwise
    transcript: string,  // `transcribe_audio` never raises; "" on its own errors
    embedRaises: bool,   // one of the three embedders raises
    vectors: Vectors,    // what they return otherwise
    upsertOk: bool)      // the Qdrant upsert in `index_video` succeeds

  /** The directory the conversion step reads, next to the videos directory. */
  const RawDirName: string := "video_examples_raw"

  /** `os.path.join(os.path.dirname(videos_dir), "video_examples_raw")`: a
      sibling of the videos directory, under the same parent. */
  function RawVideosDir(videosDir: string): (r: string)
    ensures r == Join(Dirname(videosDir), RawDirName)
    ensures Basename(r) == RawDirName
    ensures Dirname(r) == Dirname(videosDir)
  {
    var parent := Dirname(videosDir);
    assert DirShaped(parent);
    assert Sep !in RawDirName;
    DirnameOfJoin(parent, RawDirName);
    Join(parent, RawDirName)
  }

  /** A videos directory without a separator has its raw sibling in the working
      directory. */
  lemma RawVideosDirOfPlainName(videosDir: string)
    requires Sep !in videosDir
    ensures RawVideosDir(videosDir) == RawDirName
  {
  }

  // ---------------------------------------------------------------------------
  // Already indexed paths

  predicate HasTextPath(q: VideoPoint)
  {
    VideoPathKey in q.payload && q.payload[VideoPathKey].Text?
  }

  /** The point's text `video_path` ("" when it has none). */
  function PathOf(q: VideoPoint): string
  {
    if HasTextPath(q) then q.payload[VideoPathKey].s else ""
  }

  /** The point's `video_path` is the text `path`. */
  predicate StoresPath(q: VideoPoint, path: string)
  {
    VideoPathKey in q.payload && q.payload[VideoPathKey] == Text(path)
  }

  /** `x` is the normalised text path of one of `points`. */
  predicate Collected(points: seq<VideoPoint>, x: string)
  {
    exists i :: 0 <= i < |points| && HasTextPath(points[i]) && NormPath(PathOf(points[i])) == x
  }

  /** What the later points carry, the whole sequence carries. */
  lemma CollectedFromTail(points: seq<VideoPoint>)
    requires |points| > 0
    ensures forall x :: Collected(points[1..], x) ==> Collected(points, x)
  {
    forall x | Collected(points[1..], x)
      ensures Collected(points, x)
    {
      var k :| 0 <= k < |points[1..]| && HasTextPath(points[1..][k])
               && NormPath(PathOf(points[1..][k])) == x;
      assert points[k + 1] == points[1..][k];
    }
  }

  /** The scroll loop: normalise every point's `video_path`; a non-text value
      makes `normpath` raise, which ends the loop with what was collected. */
  function CollectIndexed(points: seq<VideoPoint>): (r: set<string>)
    ensures forall x :: x in r ==> Collected(points, x)
    decreases |points|
  {
    if |points| == 0 then {}
    else
      var q := points[0];
      var rest := CollectIndexed(points[1..]);
      CollectedFromTail(points);
      if VideoPathKey !in q.payload then rest
      else match q.payload[VideoPathKey]
        case Int(_) => {}
        case Text(s) =>
          assert HasTextPath(points[0]) && PathOf(points[0]) == s;
          {NormPath(s)} + rest
  }

  /** Every point carries a text `video_path` under the stored-path prefix: what
      `index_video` writes. */
  predicate WellFormed(store: seq<VideoPoint>)
  {
    forall i :: 0 <= i < |store| ==> HasTextPath(store[i]) && StartsWith(PathOf(store[i]), AppPrefix)
  }

  /** When every point carries a text path, each of them is collected. */
  lemma {:induction false} CollectIndexedComplete(points: seq<VideoPoint>)
    requires forall i :: 0 <= i < |points| ==> HasTextPath(points[i])
    ensures forall i :: 0 <= i < |points| ==> NormPath(PathOf(points[i])) in CollectIndexed(points)
    decreases |points|
  {
    if |points| > 0 {
      CollectIndexedComplete(points[1..]);
      forall i | 1 <= i < |points|
        ensures NormPath(PathOf(points[i])) in CollectIndexed(points)
      {
        assert points[i] == points[1..][i - 1];
      }
    }
  }

  /** The one scroll of at most `ScrollLimit` points; a failing scroll leaves
      the set empty. */
  function KnownPaths(store: seq<VideoPoint>, scrollOk: bool): (r: set<string>)
    ensures !scrollOk ==> r == {}
    ensures forall x :: x in r ==> Collected(store[..Min(Config.ScrollLimit, |store|)], x)
    ensures forall x :: x in r ==> Collected(store, x)
  {
    if !scrollOk then {}
    else
      var page := store[..Min(Config.ScrollLimit, |store|)];
      var r := CollectIndexed(page);
      assert forall x :: Collected(page, x) ==> Collected(store, x) by {
        forall x | Collected(page, x)
          ensures Collected(store, x)
        {
          var i :| 0 <= i < |page| && HasTextPath(page[i]) && NormPath(PathOf(page[i])) == x;
          assert page[i] == store[i];
        }
      }
      r
  }

  /** A store the scroll reads in full: every stored path is known. */
  lemma KnownPathsComplete(store: seq<VideoPoint>)
    requires WellFormed(store) && |store| <= Config.ScrollLimit
    ensures forall i :: 0 <= i < |store| ==> NormPath(PathOf(store[i])) in KnownPaths(store, true)
  {
    assert store[..Min(Config.ScrollLimit, |store|)] == store;
    CollectIndexedComplete(store);
  }

  /** Every known path of a well-formed store is absolute. */
  lemma KnownPathsAbsolute(store: seq<VideoPoint>, scrollOk: bool)
    requires WellFormed(store)
    ensures forall x :: x in KnownPaths(store, scrollOk) ==> IsAbs(x)
  {
    forall x | x in KnownPaths(store, scrollOk)
      ensures IsAbs(x)
    {
      var i :| 0 <= i < |store| && HasTextPath(store[i]) && NormPath(PathOf(store[i])) == x;
      var s := PathOf(store[i]);
      assert s[0] == AppPrefix[0];
      NormPathKeepsAbs(s);
    }
  }

  // ---------------------------------------------------------------------------
  // New and skipped videos

  /** `normalized_path in indexed_videos and not force_reindex` is false. */
  function IsNew(indexed: set<string>, force: bool, key: string -> string): string -> bool
  {
    p => !(key(p) in indexed && !force)
  }

  /** The split loop: paths to process and paths skipped, both in discovery
      order. */
  function Partition(paths: seq<string>, indexed: set<string>, force: bool, key: string -> string): (r: (seq<string>, seq<string>))
    ensures r.0 == Filter(paths, IsNew(indexed, force, key))
    ensures r.1 == Filter(paths, Not(IsNew(indexed, force, key)))
    decreases |paths|
  {
    if |paths| == 0 then ([], [])
    else
      var init := Partition(paths[..|paths| - 1], indexed, force, key);
      var p := paths[|paths| - 1];
      assert Not(IsNew(indexed, force, key))(p) == !IsNew(indexed, force, key)(p);
      if key(p) in indexed && !force then (init.0, init.1 + [p]) else (init.0 + [p], init.1)
  }

  /** Every discovered path lands in exactly one of the two lists, and a path
      is skipped exactly when its key is known and reindexing is not forced. */
  lemma PartitionSplits(paths: seq<string>, indexed: set<string>, force: bool, key: string -> string)
    ensures var r := Partition(paths, indexed, force, key);
            && multiset(r.0) + multiset(r.1) == multiset(paths)
            && |r.0| + |r.1| == |paths|
            && (forall p :: p in r.1 <==> p in paths && key(p) in indexed && !force)
            && (forall p :: p in r.0 <==> p in paths && !(key(p) in indexed && !force))
  {
    FilterPartition(paths, IsNew(indexed, force, key));
    FilterMembers(paths, IsNew(indexed, force, key));
    FilterMembers(paths, Not(IsNew(indexed, force, key)));
  }

  // ---------------------------------------------------------------------------
  // Processing one video

  datatype Status = Indexed(id: nat) | Failed

  predicate IsIndexed(s: Status) { s.Indexed? }

  /** The metadata passed to `index_video`. */
  function Metadata(transcript: string, framesCount: nat): (m: Payload)
    ensures m.Keys == {TranscriptKey, FramesCountKey, PreviewPathKey}
    ensures m[TranscriptKey] == Text(transcript)
    ensures m[FramesCountKey] == Int(framesCount)
    ensures m[PreviewPathKey] == Text(Config.NoPreview)
  {
    map[TranscriptKey := Text(transcript), FramesCountKey := Int(framesCount), PreviewPathKey := Text(Config.NoPreview)]
  }

  /** Frame extraction and audio extraction both returned. */
  predicate ReachesAudio(m: Media)
  {
    FrameSchedule(m.readable, m.interval).Frames? && !m.audioRaises
  }

  /** Every step returned and the point was stored. */
  predicate Succeeds(m: Media)
  {
    ReachesAudio(m) && !m.embedRaises && m.upsertOk
  }

  /** The state carried from one video to the next: the store and the last
      value bound to `audio_path`, if any. */
  datatype Outcome = Outcome(store: seq<VideoPoint>, status: Status, cleaned: seq<string>, audio: Option<string>)

  /** One iteration of the processing loop. The `except` branch cleans
      whatever `audio_path` holds, which is the previous video's file when this
      video failed before its audio was extracted. */
  function ProcessVideo(store: seq<VideoPoint>, path: string, m: Media, lastAudio: Option<string>): (o: Outcome)
    ensures o.status.Indexed? <==> Succeeds(m)
    ensures Succeeds(m) ==> o.status.id !in Ids(store)
    ensures Succeeds(m) ==> o.store == store + [VideoRecord(o.status.id, path, m.vectors,
                                                            Metadata(m.transcript, |FrameSchedule(m.readable, m.interval).indices|))]
    ensures !Succeeds(m) ==> o.store == store
    ensures ReachesAudio(m) ==> o.cleaned == [m.audioPath] && o.audio == Some(m.audioPath)
    ensures !ReachesAudio(m) ==> o.audio == lastAudio && o.cleaned == (if lastAudio.Some? then [lastAudio.value] else [])
  {
    var frames := FrameSchedule(m.readable, m.interval);
    var stale := if lastAudio.Some? then [lastAudio.value] else [];
    if frames.ZeroDivision? || m.audioRaises then Outcome(store, Failed, stale, lastAudio)
    else if m.embedRaises || !m.upsertOk then Outcome(store, Failed, [m.audioPath], Some(m.audioPath))
    else
      var r := IndexVideo(store, path, m.vectors, Metadata(m.transcript, |frames.indices|));
      Outcome(r.store, Indexed(r.id), [m.audioPath], Some(m.audioPath))
  }

  /** The result of the processing loop. */
  datatype Run = Run(store: seq<VideoPoint>, statuses: seq<Status>, cleaned: seq<string>)

  /** The processing loop over the new videos, in order: one status per
      video, at most one new point per video, and every id handed out is one
      no existing point had. */
  function IndexLoop(store: seq<VideoPoint>, paths: seq<string>, media: string -> Media, lastAudio: Option<string>): (r: Run)
    ensures |r.statuses| == |paths|
    ensures |store| <= |r.store| <= |store| + |paths|
    ensures forall i :: 0 <= i < |r.statuses| && r.statuses[i].Indexed? ==> r.statuses[i].id !in Ids(store)
    decreases |paths|
  {
    if |paths| == 0 then Run(store, [], [])
    else
      var o := ProcessVideo(store, paths[0], media(paths[0]), lastAudio);
      var rest := IndexLoop(o.store, paths[1..], media, o.audio);
      assert Ids(store) <= Ids(o.store) by {
        forall id | id in Ids(store)
          ensures id in Ids(o.store)
        {
          var q :| q in store && q.id == id;
          assert q in o.store;
        }
      }
      Run(rest.store, [o.status] + rest.statuses, o.cleaned + rest.cleaned)
  }

  /** Failures are isolated: each video's status depends on its own media
      only, whatever happened to the others. */
  lemma {:induction false} IndexLoopIsolates(store: seq<VideoPoint>, paths: seq<string>, media: string -> Media, lastAudio: Option<string>)
    ensures var r := IndexLoop(store, paths, media, lastAudio);
            forall i :: 0 <= i < |paths| ==> (r.statuses[i].Indexed? <==> Succeeds(media(paths[i])))
    decreases |paths|
  {
    if |paths| > 0 {
      var o := ProcessVideo(store, paths[0], media(paths[0]), lastAudio);
      IndexLoopIsolates(o.store, paths[1..], media, o.audio);
      var r := IndexLoop(store, paths, media, lastAudio);
      forall i | 1 <= i < |paths|
        ensures r.statuses[i].Indexed? <==> Succeeds(media(paths[i]))
      {
        assert r.statuses[i] == IndexLoop(o.store, paths[1..], media, o.audio).statuses[i - 1];
        assert paths[1..][i - 1] == paths[i];
      }
    }
  }

  /** What one iteration does to the store: a success appends one point whose
      `video_path` is the stored form of the video's path; a failure leaves the
      store alone. */
  lemma ProcessVideoStore(store: seq<VideoPoint>, path: string, m: Media, lastAudio: Option<string>)
    ensures var o := ProcessVideo(store, path, m, lastAudio);
            && (Succeeds(m) ==> |o.store| == |store| + 1 && o.store[..|store|] == store
                                && StoresPath(o.store[|store|], StoredPath(path))
                                && o.store[|store|].vectors == m.vectors
                                && o.store[|store|].payload[TranscriptKey] == Text(m.transcript)
                                && o.store[|store|].payload[FramesCountKey]
                                   == Int(|FrameSchedule(m.readable, m.interval).indices|)
                                && o.store[|store|].payload[PreviewPathKey] == Text(Config.NoPreview))
            && (!Succeeds(m) ==> o.store == store)
  {
    var o := ProcessVideo(store, path, m, lastAudio);
    if Succeeds(m) {
      assert o.store[..|store|] == store;
    }
  }

  /** The loop only appends: the old points stay in front and one point is
      added per indexed video. */
  lemma {:induction false} IndexLoopAppends(store: seq<VideoPoint>, paths: seq<string>, media: string -> Media, lastAudio: Option<string>)
    ensures var r := IndexLoop(store, paths, media, lastAudio);
            && |store| <= |r.store|
            && r.store[..|store|] == store
            && |r.store| - |store| == |Filter(r.statuses, IsIndexed)|
    decreases |paths|
  {
    if |paths| > 0 {
      var o := ProcessVideo(store, paths[0], media(paths[0]), lastAudio);
      ProcessVideoStore(store, paths[0], media(paths[0]), lastAudio);
      IndexLoopAppends(o.store, paths[1..], media, o.audio);
      var rest := IndexLoop(o.store, paths[1..], media, o.audio);
      var r := IndexLoop(store, paths, media, lastAudio);
      assert r.store == rest.store;
      assert r.statuses == [o.status] + rest.statuses;
      FilterAppend([o.status], rest.statuses, IsIndexed);
      assert [o.status][..0] == [];
      assert r.store[..|store|] == store by {
        assert rest.store[..|o.store|] == o.store;
        assert o.store[..|store|] == store;
      }
    }
  }

  /** `q` is the record of one of `paths` whose steps all succeed. */
  predicate RecordOfSuccess(q: VideoPoint, paths: seq<string>, media: string -> Media)
  {
    exists i :: 0 <= i < |paths| && Succeeds(media(paths[i])) && StoresPath(q, StoredPath(paths[i]))
  }

  /** A record of one of the later videos is a record of one of all of them. */
  lemma RecordOfSuccessTail(paths: seq<string>, media: string -> Media)
    requires |paths| > 0
    ensures forall q :: RecordOfSuccess(q, paths[1..], media) ==> RecordOfSuccess(q, paths, media)
  {
    forall q | RecordOfSuccess(q, paths[1..], media)
      ensures RecordOfSuccess(q, paths, media)
    {
      var j :| 0 <= j < |paths[1..]| && Succeeds(media(paths[1..][j])) && StoresPath(q, StoredPath(paths[1..][j]));
      assert paths[j + 1] == paths[1..][j];
    }
  }

  /** Each added point is the record of a new video that succeeded. */
  lemma {:induction false} IndexLoopProvenance(store: seq<VideoPoint>, paths: seq<string>, media: string -> Media, lastAudio: Option<string>)
    ensures var r := IndexLoop(store, paths, media, lastAudio);
            forall k :: |store| <= k < |r.store| ==> RecordOfSuccess(r.store[k], paths, media)
    decreases |paths|
  {
    if |paths| > 0 {
      var o := ProcessVideo(store, paths[0], media(paths[0]), lastAudio);
      ProcessVideoStore(store, paths[0], media(paths[0]), lastAudio);
      IndexLoopProvenance(o.store, paths[1..], media, o.audio);
      IndexLoopAppends(o.store, paths[1..], media, o.audio);
      RecordOfSuccessTail(paths, media);
      var rest := IndexLoop(o.store, paths[1..], media, o.audio);
      var r := IndexLoop(store, paths, media, lastAudio);
      assert r.store == rest.store;
      forall k | |store| <= k < |o.store|
        ensures RecordOfSuccess(r.store[k], paths, media)
      {
        assert r.store[k] == rest.store[..|o.store|][k] == o.store[k];
        assert StoresPath(r.store[k], StoredPath(paths[0]));
      }
    }
  }

  /** Every video of `paths` that succeeds has a record among the points
      `after` added to `before`. */
  predicate SuccessesStored(before: seq<VideoPoint>, after: seq<VideoPoint>, paths: seq<string>, media: string -> Media)
  {
    forall i :: 0 <= i < |paths| && Succeeds(media(paths[i])) ==>
      exists k :: |before| <= k < |after| && StoresPath(after[k], StoredPath(paths[i]))
  }

  /** Every video whose steps all succeed has its record stored. */
  lemma {:induction false} IndexLoopStoresSuccesses(store: seq<VideoPoint>, paths: seq<string>, media: string -> Media, lastAudio: Option<string>)
    ensures SuccessesStored(store, IndexLoop(store, paths, media, lastAudio).store, paths, media)
    decreases |paths|
  {
    if |paths| > 0 {
      var o := ProcessVideo(store, paths[0], media(paths[0]), lastAudio);
      ProcessVideoStore(store, paths[0], media(paths[0]), lastAudio);
      IndexLoopStoresSuccesses(o.store, paths[1..], media, o.audio);
      IndexLoopAppends(o.store, paths[1..], media, o.audio);
      var rest := IndexLoop(o.store, paths[1..], media, o.audio);
      var r := IndexLoop(store, paths, media, lastAudio);
      assert r.store == rest.store;
      forall i | 0 <= i < |paths| && Succeeds(media(paths[i]))
        ensures exists k :: |store| <= k < |r.store| && StoresPath(r.store[k], StoredPath(paths[i]))
      {
        if i == 0 {
          assert r.store[|store|] == rest.store[..|o.store|][|store|] == o.store[|store|];
        } else {
          assert paths[1..][i - 1] == paths[i];
          var k :| |o.store| <= k < |rest.store| && StoresPath(rest.store[k], StoredPath(paths[1..][i - 1]));
          assert |store| <= |o.store|;
          assert StoresPath(r.store[k], StoredPath(paths[i]));
        }
      }
    }
  }

  /** Indexing keeps every stored path under the stored-path prefix. */
  lemma IndexLoopWellFormed(store: seq<VideoPoint>, paths: seq<string>, media: string -> Media, lastAudio: Option<string>)
    requires WellFormed(store)
    ensures WellFormed(IndexLoop(store, paths, media, lastAudio).store)
  {
    IndexLoopAppends(store, paths, media, lastAudio);
    IndexLoopProvenance(store, paths, media, lastAudio);
    var r := IndexLoop(store, paths, media, lastAudio);
    forall k | 0 <= k < |r.store|
      ensures HasTextPath(r.store[k]) && StartsWith(PathOf(r.store[k]), AppPrefix)
    {
      if k < |store| {
        assert r.store[k] == r.store[..|store|][k];
      } else {
        assert RecordOfSuccess(r.store[k], paths, media);
        var i :| 0 <= i < |paths| && Succeeds(media(paths[i]))
                 && StoresPath(r.store[k], StoredPath(paths[i]));
        assert PathOf(r.store[k]) == StoredPath(paths[i]);
      }
    }
  }

  /** Temporary audio files: every video that got one has it cleaned, and
      nothing else is ever cleaned (a stale path is one of the earlier files). */
  lemma {:induction false} IndexLoopCleansAudio(store: seq<VideoPoint>, paths: seq<string>, media: string -> Media, lastAudio: Option<string>)
    ensures var r := IndexLoop(store, paths, media, lastAudio);
            && (forall i :: 0 <= i < |paths| && ReachesAudio(media(paths[i])) ==> media(paths[i]).audioPath in r.cleaned)
            && (forall c :: c in r.cleaned ==>
                  (lastAudio.Some? && c == lastAudio.value)
                  || exists i :: 0 <= i < |paths| && ReachesAudio(media(paths[i])) && c == media(paths[i]).audioPath)
    decreases |paths|
  {
    if |paths| > 0 {
      var o := ProcessVideo(store, paths[0], media(paths[0]), lastAudio);
      IndexLoopCleansAudio(o.store, paths[1..], media, o.audio);
      var rest := IndexLoop(o.store, paths[1..], media, o.audio);
      var r := IndexLoop(store, paths, media, lastAudio);
      assert r.cleaned == o.cleaned + rest.cleaned;
      forall i | 0 <= i < |paths| && ReachesAudio(media(paths[i]))
        ensures media(paths[i]).audioPath in r.cleaned
      {
        if i > 0 {
          assert paths[1..][i - 1] == paths[i];
        }
      }
      forall c | c in r.cleaned
        ensures (lastAudio.Some? && c == lastAudio.value)
                || exists i :: 0 <= i < |paths| && ReachesAudio(media(paths[i])) && c == media(paths[i]).audioPath
      {
        if c in rest.cleaned && !(o.audio.Some? && c == o.audio.value) {
          var j :| 0 <= j < |paths[1..]| && ReachesAudio(media(paths[1..][j])) && c == media(paths[1..][j]).audioPath;
          assert paths[j + 1] == paths[1..][j];
        }
      }
    }
  }

  /** A video that fails before its audio is extracted cleans the previous
      video's audio file a second time. */
  lemma StaleAudioCleanedAgain(store: seq<VideoPoint>, a: string, b: string, media: string -> Media)
    requires ReachesAudio(media(a)) && !ReachesAudio(media(b))
    ensures IndexLoop(store, [a, b], media, None).cleaned == [media(a).audioPath, media(a).audioPath]
  {
    var o1 := ProcessVideo(store, a, media(a), None);
    assert o1.audio == Some(media(a).audioPath) && o1.cleaned == [media(a).audioPath];
    var o2 := ProcessVideo(o1.store, b, media(b), o1.audio);
    assert o2.cleaned == [media(a).audioPath];
    assert [a, b][1..] == [b];
    assert [b][1..] == [];
    var r2 := IndexLoop(o1.store, [b], media, o1.audio);
    assert r2.cleaned == o2.cleaned + IndexLoop(o2.store, [], media, o2.audio).cleaned;
    assert IndexLoop(store, [a, b], media, None).cleaned == o1.cleaned + r2.cleaned;
  }

  // ---------------------------------------------------------------------------
  // The whole command

  datatype Report = Report(
    newVideos: seq<string>, skipped: seq<string>,
    statuses: seq<Status>, store: seq<VideoPoint>, cleaned: seq<string>,
    indexedCount: nat, skippedCount: nat)

  /** `index_videos` with the dedup key `key`. `listing` is the directory
      listing after the conversion step, `store` the collection's points in
      scroll order. */
  function IndexWith(key: string -> string, videosDir: string, force: bool, listing: seq<string>,
                     store: seq<VideoPoint>, scrollOk: bool, media: string -> Media): (r: Report)
    ensures r.indexedCount == |r.newVideos| == |r.statuses|
    ensures r.skippedCount == |r.skipped|
    ensures r.indexedCount + r.skippedCount == |VideoFiles(videosDir, listing)|
    ensures force ==> r.newVideos == VideoFiles(videosDir, listing) && r.skipped == []
  {
    var paths := VideoFiles(videosDir, listing);
    var indexed := if force then {} else KnownPaths(store, scrollOk);
    var split := Partition(paths, indexed, force, key);
    PartitionSplits(paths, indexed, force, key);
    assert force ==> split.0 == paths && split.1 == [] by {
      if force {
        FilterAll(paths, IsNew(indexed, force, key));
      }
    }
    var run := IndexLoop(store, split.0, media, None);
    Report(split.0, split.1, run.statuses, run.store, run.cleaned, |split.0|, |split.1|)
  }

  /** The command as written: a discovered path is looked up by `normpath` of
      itself. */
  function IndexVideosAsWritten(videosDir: string, force: bool, listing: seq<string>,
                                store: seq<VideoPoint>, scrollOk: bool, media: string -> Media): Report
  {
    IndexWith(NormPath, videosDir, force, listing, store, scrollOk, media)
  }

  /** The lookup key that matches what `index_video` stores: the stored form of
      the path, normalised. */
  function StoredKey(p: string): string
  {
    NormPath(StoredPath(p))
  }

  /** The command with the lookup done on the stored form of each path. */
  function IndexVideosFixed(videosDir: string, force: bool, listing: seq<string>,
                            store: seq<VideoPoint>, scrollOk: bool, media: string -> Media): Report
  {
    IndexWith(StoredKey, videosDir, force, listing, store, scrollOk, media)
  }

  // ---------------------------------------------------------------------------
  // Running the command twice

  /** After a first run, the second run skips every video the first run
      skipped or indexed successfully. */
  predicate SkipsWhatWasDone(r1: Report, r2: Report, media: string -> Media)
  {
    && (forall p :: p in r1.skipped ==> p in r2.skipped)
    && (forall p :: p in r1.newVideos && Succeeds(media(p)) ==> p in r2.skipped)
  }

  /** Appending points to a store the scroll reads in full forgets no known path. */
  lemma KnownPathsOfPrefix(store: seq<VideoPoint>, after: seq<VideoPoint>)
    requires WellFormed(after) && |after| <= Config.ScrollLimit
    requires |store| <= |after| && after[..|store|] == store
    ensures forall x :: x in KnownPaths(store, true) ==> x in KnownPaths(after, true)
  {
    KnownPathsComplete(after);
    forall x | x in KnownPaths(store, true)
      ensures x in KnownPaths(after, true)
    {
      var i :| 0 <= i < |store| && HasTextPath(store[i]) && NormPath(PathOf(store[i])) == x;
      assert after[i] == after[..|store|][i] == store[i];
    }
  }

  /** What the scroll of the next run knows after the processing loop: every
      path known before, and the stored form of every video that succeeded. */
  lemma KnownAfterRun(store: seq<VideoPoint>, paths: seq<string>, media: string -> Media)
    requires WellFormed(store)
    requires |store| + |paths| <= Config.ScrollLimit
    ensures var after := IndexLoop(store, paths, media, None).store;
            && (forall x :: x in KnownPaths(store, true) ==> x in KnownPaths(after, true))
            && (forall p :: p in paths && Succeeds(media(p)) ==> StoredKey(p) in KnownPaths(after, true))
  {
    var after := IndexLoop(store, paths, media, None).store;
    IndexLoopWellFormed(store, paths, media, None);
    IndexLoopAppends(store, paths, media, None);
    IndexLoopStoresSuccesses(store, paths, media, None);
    KnownPathsComplete(after);
    KnownPathsOfPrefix(store, after);
    forall p | p in paths && Succeeds(media(p))
      ensures StoredKey(p) in KnownPaths(after, true)
    {
      var j :| 0 <= j < |paths| && paths[j] == p;
      var k :| |store| <= k < |after| && StoresPath(after[k], StoredPath(paths[j]));
      assert PathOf(after[k]) == StoredPath(p);
    }
  }

  /** A run against an empty collection (what a gateway that fell back to the
      in-memory store holds) skips no video: every discovered path is new. */
  lemma FreshStoreSkipsNothing(key: string -> string, videosDir: string, listing: seq<string>,
                               scrollOk: bool, media: string -> Media)
    ensures var r := IndexWith(key, videosDir, false, listing, [], scrollOk, media);
            r.skipped == [] && r.newVideos == VideoFiles(videosDir, listing)
  {
    var paths := VideoFiles(videosDir, listing);
    assert KnownPaths([], scrollOk) == {};
    FilterAll(paths, IsNew({}, false, key));
    PartitionSplits(paths, {}, false, key);
  }

  /** Cross-run idempotence for any lookup key that agrees with the stored form
      of the discovered paths, provided the scroll succeeds and the store,
      with one record added per discovered video, still fits in one page.
      The second run is handed the first run's store, so both runs must reach
      the same persistent remote collection; a run whose gateway fell back to
      the in-memory store starts empty and skips nothing
      (`FreshStoreSkipsNothing`). */
  lemma SecondRunSkips(key: string -> string, videosDir: string, listing: seq<string>,
                       store: seq<VideoPoint>, media: string -> Media, media2: string -> Media)
    requires WellFormed(store)
    requires forall p :: p in VideoFiles(videosDir, listing) ==> key(p) == StoredKey(p)
    requires |store| + |VideoFiles(videosDir, listing)| <= Config.ScrollLimit
    ensures var r1 := IndexWith(key, videosDir, false, listing, store, true, media);
            SkipsWhatWasDone(r1, IndexWith(key, videosDir, false, listing, r1.store, true, media2), media)
  {
    var paths := VideoFiles(videosDir, listing);
    var known1 := KnownPaths(store, true);
    var split1 := Partition(paths, known1, false, key);
    PartitionSplits(paths, known1, false, key);
    var r1 := IndexWith(key, videosDir, false, listing, store, true, media);
    assert r1.store == IndexLoop(store, split1.0, media, None).store;
    KnownAfterRun(store, split1.0, media);
    var known2 := KnownPaths(r1.store, true);
    PartitionSplits(paths, known2, false, key);
    var r2 := IndexWith(key, videosDir, false, listing, r1.store, true, media2);
    assert r2.skipped == Partition(paths, known2, false, key).1;
  }

  /** As written, a second run skips what the first did only for discovered
      paths already in stored form (under "/app/"). */
  lemma AsWrittenSecondRunSkipsAppPaths(videosDir: string, listing: seq<string>,
                                        store: seq<VideoPoint>, media: string -> Media, media2: string -> Media)
    requires WellFormed(store)
    requires forall p :: p in VideoFiles(videosDir, listing) ==> StartsWith(p, AppPrefix)
    requires |store| + |VideoFiles(videosDir, listing)| <= Config.ScrollLimit
    ensures var r1 := IndexVideosAsWritten(videosDir, false, listing, store, true, media);
            SkipsWhatWasDone(r1, IndexVideosAsWritten(videosDir, false, listing, r1.store, true, media2), media)
  {
    SecondRunSkips(NormPath, videosDir, listing, store, media, media2);
  }

  /** As written, a relative discovered path is never skipped when the
      collection holds only what `index_video` writes: its normal form is
      relative, every known path absolute. */
  lemma AsWrittenNeverSkipsRelative(videosDir: string, force: bool, listing: seq<string>,
                                    store: seq<VideoPoint>, scrollOk: bool, media: string -> Media)
    requires WellFormed(store)
    ensures var r := IndexVideosAsWritten(videosDir, force, listing, store, scrollOk, media);
            forall p :: p in VideoFiles(videosDir, listing) && !IsAbs(p) ==> p in r.newVideos && p !in r.skipped
  {
    var paths := VideoFiles(videosDir, listing);
    var known := if force then {} else KnownPaths(store, scrollOk);
    KnownPathsAbsolute(store, scrollOk);
    PartitionSplits(paths, known, force, NormPath);
    forall p | p in paths && !IsAbs(p)
      ensures NormPath(p) !in known
    {
      NormPathKeepsAbs(p);
    }
  }

  /** With the default videos directory every run re-indexes every video: the
      second run stores a duplicate record of each one. */
  lemma DefaultDirReindexesEveryRun(listing: seq<string>, store: seq<VideoPoint>, media: string -> Media, media2: string -> Media)
    requires WellFormed(store)
    requires forall n :: n in listing ==> !IsAbs(n)
    ensures var r1 := IndexVideosAsWritten(Config.DefaultVideosDir, false, listing, store, true, media);
            var r2 := IndexVideosAsWritten(Config.DefaultVideosDir, false, listing, r1.store, true, media2);
            r2.newVideos == VideoFiles(Config.DefaultVideosDir, listing) && r2.skipped == []
  {
    var paths := VideoFiles(Config.DefaultVideosDir, listing);
    var r1 := IndexVideosAsWritten(Config.DefaultVideosDir, false, listing, store, true, media);
    VideoFilesRelative(Config.DefaultVideosDir, listing);
    var known := KnownPaths(store, true);
    var split1 := Partition(paths, known, false, NormPath);
    IndexLoopWellFormed(store, split1.0, media, None);
    var known2 := KnownPaths(r1.store, true);
    AsWrittenNeverSkipsRelative(Config.DefaultVideosDir, false, listing, r1.store, true, media2);
    forall p | p in paths
      ensures IsNew(known2, false, NormPath)(p)
    {
      NormPathKeepsAbs(p);
      KnownPathsAbsolute(r1.store, true);
    }
    FilterAll(paths, IsNew(known2, false, NormPath));
  }

  /** With the stored-form lookup a second run skips everything the first
      skipped or indexed, wherever the videos directory is. */
  lemma FixedSecondRunSkips(videosDir: string, listing: seq<string>,
                            store: seq<VideoPoint>, media: string -> Media, media2: string -> Media)
    requires WellFormed(store)
    requires |store| + |VideoFiles(videosDir, listing)| <= Config.ScrollLimit
    ensures var r1 := IndexVideosFixed(videosDir, false, listing, store, true, media);
            SkipsWhatWasDone(r1, IndexVideosFixed(videosDir, false, listing, r1.store, true, media2), media)
  {
    SecondRunSkips(StoredKey, videosDir, listing, store, media, media2);
  }
}

=== FILE: posix_path.dfy ===
/** Lexical POSIX path operations as Python's `posixpath` performs them:
    `basename`, `dirname`, `isabs`, two-argument `join` and `normpath`. A path is a string;
    `normpath` works on the list of its '/'-separated segments. */
module PosixPath {
  import opened Basics

  const Sep: char := '/'

  predicate IsAbs(p: string)
  {
    |p| > 0 && p[0] == Sep
  }

  /** The text after the last separator: the longest separator-free suffix. */
  function Basename(p: string): (b: string)
    ensures Sep !in b
    ensures EndsWith(p, b)
    ensures |b| < |p| ==> p[|p| - |b| - 1] == Sep
    decreases |p|
  {
    if |p| == 0 || p[|p| - 1] == Sep then ""
    else Basename(p[..|p| - 1]) + [p[|p| - 1]]
  }

  /** `posixpath.join(a, b)`: an absolute `b` replaces `a`; otherwise a separator
      is inserted unless `a` is empty or already ends with one. */
  function Join(a: string, b: string): (r: string)
    ensures IsAbs(b) ==> r == b
    ensures !IsAbs(b) ==> StartsWith(r, a) && EndsWith(r, b) && |r| <= |a| + 1 + |b|
    ensures !IsAbs(b) && (|a| == 0 || EndsWith(a, [Sep])) ==> r == a + b
    ensures !IsAbs(b) && |a| > 0 && !EndsWith(a, [Sep]) ==> r == a + [Sep] + b
  {
    if IsAbs(b) then b
    else if |a| == 0 || a[|a| - 1] == Sep then a + b
    else a + [Sep] + b
  }

  /** The string consists of separators only (possibly none). */
  predicate AllSeps(s: string)
  {
    forall i :: 0 <= i < |s| ==> s[i] == Sep
  }

  /** Everything before the basename: the path up to and including its last
      separator. */
  function Head(p: string): (h: string)
    ensures p == h + Basename(p)
    ensures |h| == 0 || h[|h| - 1] == Sep
  {
    var h := p[..|p| - |Basename(p)|];
    assert p == h + p[|p| - |Basename(p)|..];
    h
  }

  /** The path with its trailing separators removed. */
  function StripTrailingSeps(s: string): (r: string)
    ensures StartsWith(s, r)
    ensures |r| == 0 || r[|r| - 1] != Sep
    ensures forall i :: |r| <= i < |s| ==> s[i] == Sep
    decreases |s|
  {
    if |s| > 0 && s[|s| - 1] == Sep then StripTrailingSeps(s[..|s| - 1]) else s
  }

  /** `posixpath.dirname`: everything before the basename, without trailing
      separators unless it consists of separators only. */
  function Dirname(p: string): (d: string)
    ensures StartsWith(p, d)
    ensures Sep !in p ==> d == ""
    ensures AllSeps(Head(p)) ==> d == Head(p)
    ensures !AllSeps(Head(p)) ==> && |d| > 0 && StartsWith(Head(p), d) && d[|d| - 1] != Sep
                                   && forall i :: |d| <= i < |Head(p)| ==> Head(p)[i] == Sep
  {
    var head := Head(p);
    if AllSeps(head) then head else StripTrailingSeps(head)
  }

  /** After an empty prefix or one that ends in a separator, the basename is
      decided by the suffix alone. */
  lemma {:induction false} BasenameAfterSep(x: string, y: string)
    requires |x| == 0 || x[|x| - 1] == Sep
    ensures Basename(x + y) == Basename(y)
    decreases |y|
  {
    if |y| == 0 {
      assert x + y == x;
    } else if y[|y| - 1] != Sep {
      assert (x + y)[..|x + y| - 1] == x + y[..|y| - 1];
      BasenameAfterSep(x, y[..|y| - 1]);
    }
  }

  /** The basename of a separator-free string is the string itself. */
  lemma {:induction false} BasenameOfName(n: string)
    requires Sep !in n
    ensures Basename(n) == n
    decreases |n|
  {
    if |n| > 0 {
      assert n[..|n| - 1] + [n[|n| - 1]] == n;
      BasenameOfName(n[..|n| - 1]);
    }
  }

  /** Joining never changes the file name: it is the basename of the second part. */
  lemma BasenameOfJoin(a: string, b: string)
    ensures Basename(Join(a, b)) == Basename(b)
  {
    if !IsAbs(b) {
      if |a| == 0 || a[|a| - 1] == Sep {
        BasenameAfterSep(a, b);
      } else {
        assert a + [Sep] + b == (a + [Sep]) + b;
        BasenameAfterSep(a + [Sep], b);
      }
    }
  }

  // ---------------------------------------------------------------------------
  // Segments

  /** `s.split('/')`: always at least one segment, none holding a separator. */
  function Split(s: string): (segs: seq<string>)
    ensures |segs| >= 1
    ensures forall i :: 0 <= i < |segs| ==> Sep !in segs[i]
    decreases |s|
  {
    if |s| == 0 then [""]
    else
      var rest := Split(s[1..]);
      if s[0] == Sep then [""] + rest
      else [[s[0]] + rest[0]] + rest[1..]
  }

  /** `'/'.join(segs)`. */
  function JoinSegs(segs: seq<string>): string
    decreases |segs|
  {
    if |segs| == 0 then ""
    else if |segs| == 1 then segs[0]
    else segs[0] + [Sep] + JoinSegs(segs[1..])
  }

  /** What `dirname` returns is a directory `join` accepts back: either
      separators only, or text that does not end in a separator. */
  predicate DirShaped(d: string)
  {
    AllSeps(d) || d[|d| - 1] != Sep
  }

  /** After an empty prefix or one that ends in a separator, a separator-free
      suffix is the basename and the prefix is the head. */
  lemma HeadAfterSep(x: string, y: string)
    requires |x| == 0 || x[|x| - 1] == Sep
    requires Sep !in y
    ensures Head(x + y) == x
  {
    BasenameAfterSep(x, y);
    BasenameOfName(y);
    var p := x + y;
    assert p[..|p| - |y|] == x;
  }

  /** A separator-free name joined to a directory has that directory as its
      `dirname` and itself as its `basename`. */
  lemma DirnameOfJoin(d: string, name: string)
    requires DirShaped(d)
    requires Sep !in name
    ensures Basename(Join(d, name)) == name
    ensures Dirname(Join(d, name)) == d
  {
    BasenameOfJoin(d, name);
    BasenameOfName(name);
    if |d| == 0 || d[|d| - 1] == Sep {
      assert Join(d, name) == d + name;
      HeadAfterSep(d, name);
      assert AllSeps(d);
    } else {
      var h := d + [Sep];
      assert Join(d, name) == h + name;
      HeadAfterSep(h, name);
      assert !AllSeps(h) by {
        assert h[|d| - 1] != Sep;
      }
      assert StripTrailingSeps(h) == d by {
        assert h[..|h| - 1] == d;
      }
    }
  }

  /** Splitting and re-joining gives the original string back. */
  lemma {:induction false} JoinSplit(s: string)
    ensures JoinSegs(Split(s)) == s
    decreases |s|
  {
    if |s| > 0 {
      var rest := Split(s[1..]);
      JoinSplit(s[1..]);
      if s[0] == Sep {
        assert Split(s) == [""] + rest;
        assert ([""] + rest)[1..] == rest;
        assert [s[0]] + s[1..] == s;
      } else {
        var segs := Split(s);
        assert segs == [[s[0]] + rest[0]] + rest[1..];
        if |rest| == 1 {
          assert [s[0]] + s[1..] == s;
        } else {
          assert segs[1..] == rest[1..];
          assert JoinSegs(rest) == rest[0] + [Sep] + JoinSegs(rest[1..]);
          assert [s[0]] + s[1..] == s;
        }
      }
    }
  }

  /** A separator-free prefix extends the first segment of what follows it. */
  lemma {:induction false} SplitWordPrefix(w: string, x: string)
    requires Sep !in w
    ensures Split(w + x) == [w + Split(x)[0]] + Split(x)[1..]
    decreases |w|
  {
    if |w| > 0 {
      SplitWordPrefix(w[1..], x);
      assert (w + x)[0] == w[0];
      assert (w + x)[1..] == w[1..] + x;
      assert [w[0]] + (w[1..] + Split(x)[0]) == w + Split(x)[0];
    } else {
      var sx := Split(x);
      assert w + x == x;
      assert w + sx[0] == sx[0];
      assert [sx[0]] + sx[1..] == sx;
    }
  }

  /** Splitting a join of separator-free segments gives the segments back. */
  lemma {:induction false} SplitJoin(segs: seq<string>)
    requires |segs| >= 1
    requires forall i :: 0 <= i < |segs| ==> Sep !in segs[i]
    ensures Split(JoinSegs(segs)) == segs
    decreases |segs|
  {
    if |segs| == 1 {
      SplitWordPrefix(segs[0], "");
      assert segs[0] + "" == segs[0];
    } else {
      var tail := JoinSegs(segs[1..]);
      var x := [Sep] + tail;
      SplitJoin(segs[1..]);
      assert JoinSegs(segs) == segs[0] + x;
      SplitWordPrefix(segs[0], x);
      assert x[0] == Sep && x[1..] == tail;
      assert Split(x) == [""] + segs[1..];
      assert Split(x)[0] == "" && Split(x)[1..] == segs[1..];
      assert segs[0] + "" == segs[0];
      assert [segs[0]] + segs[1..] == segs;
    }
  }

  // ---------------------------------------------------------------------------
  // normpath

  /** One component of a normalised path: non-empty, not ".", no separator. */
  predicate IsComp(c: string)
  {
    c != "" && c != "." && Sep !in c
  }

  /** The shape of a collapsed component list: proper components only, no ".."
      under a root, and in a relative path every ".." before every name. */
  predicate Normal(cs: seq<string>, rooted: bool)
  {
    && (forall i :: 0 <= i < |cs| ==> IsComp(cs[i]))
    && (rooted ==> forall i :: 0 <= i < |cs| ==> cs[i] != "..")
    && (forall i, j :: 0 <= i < j < |cs| && cs[j] == ".." ==> cs[i] == "..")
  }

  /** One iteration of normpath's component loop: drop "" and ".", let ".." pop
      a name, keep a leading ".." in a relative path, drop ".." at the root. */
  function Step(acc: seq<string>, comp: string, rooted: bool): seq<string>
  {
    if comp == "" || comp == "." then acc
    else if comp != ".." || (!rooted && |acc| == 0) || (|acc| > 0 && acc[|acc| - 1] == "..") then acc + [comp]
    else if |acc| > 0 then acc[..|acc| - 1]
    else acc
  }

  /** The component loop over `comps`, starting from the kept list `acc`. */
  function Collapse(acc: seq<string>, comps: seq<string>, rooted: bool): seq<string>
    decreases |comps|
  {
    if |comps| == 0 then acc
    else Collapse(Step(acc, comps[0], rooted), comps[1..], rooted)
  }

  /** POSIX keeps exactly two leading slashes; one, or three and more, become one. */
  function LeadingSlashes(s: string): (n: nat)
    ensures n <= 2
    ensures n > 0 <==> IsAbs(s)
  {
    if StartsWith(s, "//") && !StartsWith(s, "///") then 2
    else if StartsWith(s, "/") then 1
    else 0
  }

  function Slashes(n: nat): string
    requires n <= 2
  {
    if n == 2 then "//" else if n == 1 then "/" else ""
  }

  /** `posixpath.normpath`: purely lexical normalisation; "" becomes ".". */
  function NormPath(s: string): (r: string)
    ensures r != ""
  {
    if s == "" then "."
    else
      var n := LeadingSlashes(s);
      var p := Slashes(n) + JoinSegs(Collapse([], Split(s), n > 0));
      if p == "" then "." else p
  }

  lemma StepKeepsNormal(acc: seq<string>, comp: string, rooted: bool)
    requires Normal(acc, rooted)
    requires Sep !in comp
    ensures Normal(Step(acc, comp, rooted), rooted)
  {
    var r := Step(acc, comp, rooted);
    if comp != "" && comp != "." && comp == ".." && |acc| > 0 && acc[|acc| - 1] == ".." {
      assert forall i :: 0 <= i < |acc| ==> acc[i] == "..";
      assert forall i :: 0 <= i < |r| ==> r[i] == "..";
    }
  }

  lemma {:induction false} CollapseKeepsNormal(acc: seq<string>, comps: seq<string>, rooted: bool)
    requires Normal(acc, rooted)
    requires forall i :: 0 <= i < |comps| ==> Sep !in comps[i]
    ensures Normal(Collapse(acc, comps, rooted), rooted)
    decreases |comps|
  {
    if |comps| > 0 {
      StepKeepsNormal(acc, comps[0], rooted);
      CollapseKeepsNormal(Step(acc, comps[0], rooted), comps[1..], rooted);
    }
  }

  /** Components already in normal form pass through the loop untouched. */
  lemma {:induction false} CollapseNormal(acc: seq<string>, comps: seq<string>, rooted: bool)
    requires Normal(acc + comps, rooted)
    ensures Collapse(acc, comps, rooted) == acc + comps
    decreases |comps|
  {
    if |comps| == 0 {
      assert acc + comps == acc;
    } else {
      var c := comps[0];
      var all := acc + comps;
      assert all[|acc|] == c;
      if c == ".." {
        assert !rooted;
        assert forall i :: 0 <= i < |acc| ==> all[i] == acc[i];
      }
      assert Step(acc, c, rooted) == acc + [c];
      assert acc + [c] + comps[1..] == all;
      CollapseNormal(acc + [c], comps[1..], rooted);
    }
  }

  /** Empty segments (from repeated or leading separators) are skipped. */
  lemma CollapseSkipsEmpty(comps: seq<string>, rooted: bool)
    ensures Collapse([], [""] + comps, rooted) == Collapse([], comps, rooted)
  {
    assert ([""] + comps)[1..] == comps;
  }

  lemma JoinSegsFirst(cs: seq<string>)
    requires |cs| > 0 && |cs[0]| > 0
    ensures |JoinSegs(cs)| > 0 && JoinSegs(cs)[0] == cs[0][0]
  {
  }

  /** The pieces `NormPath(s)` is assembled from, named for the proofs below. */
  lemma NormPathShape(s: string) returns (n: nat, cs: seq<string>)
    requires s != ""
    ensures n == LeadingSlashes(s)
    ensures cs == Collapse([], Split(s), n > 0)
    ensures Normal(cs, n > 0)
    ensures n <= 2
    ensures NormPath(s) == (if Slashes(n) + JoinSegs(cs) == "" then "." else Slashes(n) + JoinSegs(cs))
  {
    n := LeadingSlashes(s);
    cs := Collapse([], Split(s), n > 0);
    CollapseKeepsNormal([], Split(s), n > 0);
  }

  /** normpath preserves absoluteness: a relative path never normalises to an
      absolute one and vice versa. */
  lemma NormPathKeepsAbs(s: string)
    ensures IsAbs(NormPath(s)) <==> IsAbs(s)
  {
    if s != "" {
      var n, cs := NormPathShape(s);
      if n == 0 && |cs| > 0 {
        JoinSegsFirst(cs);
      }
    }
  }

  /** A rendered normal form keeps its count of leading slashes. */
  lemma LeadingSlashesOfNormal(n: nat, cs: seq<string>)
    requires n <= 2 && Normal(cs, n > 0)
    ensures LeadingSlashes(Slashes(n) + JoinSegs(cs)) == n
  {
    var j := JoinSegs(cs);
    var r := Slashes(n) + j;
    if |cs| > 0 {
      JoinSegsFirst(cs);
    } else {
      assert j == "";
    }
    if n == 2 {
      assert r[..2] == "//";
      if |r| >= 3 { assert r[2] == j[0]; assert r[..3] != "///"; }
    } else if n == 1 {
      assert r[..1] == "/";
      if |r| >= 2 { assert r[1] == j[0]; assert r[..2] != "//"; }
    } else if |r| > 0 {
      assert r[0] == j[0];
    }
  }

  /** Re-splitting a rendered normal form and collapsing it gives the same
      components back. */
  lemma CollapseOfNormal(n: nat, cs: seq<string>)
    requires n <= 2 && Normal(cs, n > 0)
    ensures Collapse([], Split(Slashes(n) + JoinSegs(cs)), n > 0) == cs
  {
    var j := JoinSegs(cs);
    var tail := Split(j);
    CollapseOfJoined(cs, n > 0);
    if n == 2 {
      SplitAfterSep([Sep] + j);
      SplitAfterSep(j);
      assert Slashes(n) + j == [Sep] + ([Sep] + j);
      CollapseSkipsEmpty([""] + tail, true);
      CollapseSkipsEmpty(tail, true);
    } else if n == 1 {
      SplitAfterSep(j);
      assert Slashes(n) + j == [Sep] + j;
      CollapseSkipsEmpty(tail, true);
    } else {
      assert Slashes(n) + j == j;
    }
  }

  /** Splitting the joined form of normal components and folding gives them back. */
  lemma CollapseOfJoined(cs: seq<string>, rooted: bool)
    requires Normal(cs, rooted)
    ensures Collapse([], Split(JoinSegs(cs)), rooted) == cs
  {
    if |cs| > 0 {
      SplitJoin(cs);
      assert [] + cs == cs;
      CollapseNormal([], cs, rooted);
    } else {
      assert Split("") == [""];
    }
  }

  /** A leading separator splits off an empty first segment. */
  lemma SplitAfterSep(x: string)
    ensures Split([Sep] + x) == [""] + Split(x)
  {
    assert ([Sep] + x)[1..] == x;
  }

  /** normpath is idempotent. */
  lemma NormPathIdempotent(s: string)
    ensures NormPath(NormPath(s)) == NormPath(s)
  {
    if s == "" {
      DotIsNormal();
    } else {
      var n, cs := NormPathShape(s);
      var r := Slashes(n) + JoinSegs(cs);
      if r == "" {
        DotIsNormal();
      } else {
        LeadingSlashesOfNormal(n, cs);
        CollapseOfNormal(n, cs);
        assert NormPath(s) == r;
      }
    }
  }

  /** "." is its own normal form. */
  lemma DotIsNormal()
    ensures NormPath(".") == "."
  {
    assert Split(".") == ["."] by {
      assert "."[1..] == "";
      assert Split("") == [""];
      assert ['.'] + "" == ".";
    }
  }
}

=== FILE: processor.dfy ===
/** The deterministic parts of the media helpers (video_processor/processor.py):
    the extension filter of `get_video_files`, the frame-sampling schedule of
    `extract_frames`, and the file-name sanitising and outcome bookkeeping of
    `convert_videos_to_web_compatible`. Decoding, ffmpeg and the file system are
    oracles whose outcomes are parameters. */
module Processor {
  import opened Basics
  import opened PosixPath
  import Config

  // ---------------------------------------------------------------------------
  // Extension filter (`get_video_files`)

  const VideoExtensions: seq<string> := [".mp4", ".avi", ".mov", ".mkv", ".webm"]

  function LowerChar(c: char): char
  {
    if 'A' <= c <= 'Z' then (c as int + 32) as char else c
  }

  /** `str.lower`, on ASCII letters. */
  function Lower(s: string): (r: string)
    ensures |r| == |s|
  {
    seq(|s|, i requires 0 <= i < |s| => LowerChar(s[i]))
  }

  predicate EndsWithAny(s: string, suffixes: seq<string>)
    decreases |suffixes|
  {
    |suffixes| > 0 && (EndsWith(s, suffixes[0]) || EndsWithAny(s, suffixes[1..]))
  }

  /** A listed name is a video when its lower-cased form ends in a known extension. */
  predicate IsVideoName(name: string)
  {
    EndsWithAny(Lower(name), VideoExtensions)
  }

  /** `get_video_files`: every listed video name, in listing order, joined to
      the directory. */
  function VideoFiles(directory: string, listing: seq<string>): (files: seq<string>)
    ensures |files| == |Filter(listing, IsVideoName)|
    ensures forall i :: 0 <= i < |files| ==> files[i] == Join(directory, Filter(listing, IsVideoName)[i])
    decreases |listing|
  {
    if |listing| == 0 then []
    else
      var init := VideoFiles(directory, listing[..|listing| - 1]);
      var name := listing[|listing| - 1];
      if IsVideoName(name) then init + [Join(directory, name)] else init
  }

  /** Under the OS guarantee that listed names hold no separator, each
      discovered path's file name is a listed video name. */
  lemma VideoFilesNames(directory: string, listing: seq<string>)
    requires forall n :: n in listing ==> Sep !in n
    ensures var files := VideoFiles(directory, listing);
            forall i :: 0 <= i < |files| ==>
              Basename(files[i]) in listing && IsVideoName(Basename(files[i]))
  {
    var files := VideoFiles(directory, listing);
    var names := Filter(listing, IsVideoName);
    FilterMembers(listing, IsVideoName);
    forall i | 0 <= i < |files|
      ensures Basename(files[i]) in listing && IsVideoName(Basename(files[i]))
    {
      assert names[i] in names;
      BasenameOfJoin(directory, names[i]);
      BasenameOfName(names[i]);
    }
  }

  /** A relative directory yields relative paths only (the command-line default
      "./video_examples" is one). */
  lemma VideoFilesRelative(directory: string, listing: seq<string>)
    requires |directory| > 0 && !IsAbs(directory)
    requires forall n :: n in listing ==> !IsAbs(n)
    ensures forall p :: p in VideoFiles(directory, listing) ==> !IsAbs(p)
  {
    var names := Filter(listing, IsVideoName);
    FilterMembers(listing, IsVideoName);
    forall p | p in VideoFiles(directory, listing)
      ensures !IsAbs(p)
    {
      var i :| 0 <= i < |VideoFiles(directory, listing)| && VideoFiles(directory, listing)[i] == p;
      assert names[i] in names;
      assert p[0] == directory[0];
    }
  }

  /** Case is ignored, and the extension must be at the very end. */
  lemma IsVideoNameExamples()
    ensures IsVideoName("CLIP.MP4")
    ensures !IsVideoName("clip.mp4.txt")
  {
    assert Lower("CLIP.MP4") == "clip.mp4";
    assert EndsWith("clip.mp4", ".mp4") by { assert "clip.mp4"[4..] == ".mp4"; }
    var t := "clip.mp4.txt";
    assert Lower(t) == t;
    assert t[8..] != ".mp4" && t[8..] != ".avi" && t[8..] != ".mov" && t[8..] != ".mkv";
    assert t[7..] != ".webm";
    assert !EndsWithAny(t, VideoExtensions[4..]);
    assert !EndsWithAny(t, VideoExtensions[3..]);
    assert !EndsWithAny(t, VideoExtensions[2..]);
    assert !EndsWithAny(t, VideoExtensions[1..]);
  }

  // ---------------------------------------------------------------------------
  // Frame sampling (`extract_frames`)

  /** The indices of the kept frames, or the `ZeroDivisionError` an interval of
      zero frames raises as soon as one frame has been read. */
  datatype Sampled = Frames(indices: seq<nat>) | ZeroDivision

  function CeilDiv(n: nat, k: nat): nat
    requires k > 0
  {
    (n + k - 1) / k
  }

  lemma DivUnique(q: int, k: int, s: int)
    requires k > 0 && 0 <= s < k
    ensures (q * k + s) / k == q
  {
    var x := q * k + s;
    var d := x / k;
    var m := x % k;
    assert d * k + m == x;
    assert (d - q) * k == s - m;
    if d > q {
      assert (d - q) * k >= k by { MulAtLeast(d - q, k); }
    } else if d < q {
      assert (q - d) * k >= k by { MulAtLeast(q - d, k); }
    }
  }

  lemma MulAtLeast(a: int, k: int)
    requires a >= 1 && k > 0
    ensures a * k >= k
  {
    assert a * k == (a - 1) * k + k;
  }

  /** Reading one more frame raises the kept count exactly when its index is a
      multiple of the interval, and that index is then the next multiple. */
  lemma CeilDivStep(c: nat, k: nat)
    requires k > 0
    ensures CeilDiv(c + 1, k) == CeilDiv(c, k) + (if c % k == 0 then 1 else 0)
    ensures c % k == 0 ==> c == CeilDiv(c, k) * k
  {
    var q := c / k;
    var r := c % k;
    assert c == q * k + r;
    DivUnique(q + 1, k, r);
    assert c + 1 + k - 1 == (q + 1) * k + r;
    if r == 0 {
      DivUnique(q, k, k - 1);
      assert c + k - 1 == q * k + (k - 1);
    } else {
      DivUnique(q + 1, k, r - 1);
      assert c + k - 1 == (q + 1) * k + (r - 1);
    }
  }

  lemma CeilDivMonotone(a: nat, b: nat, k: nat)
    requires k > 0 && a <= b
    ensures CeilDiv(a, k) <= CeilDiv(b, k)
    decreases b - a
  {
    if a < b {
      CeilDivStep(a, k);
      CeilDivMonotone(a + 1, b, k);
    }
  }

  /** The frames `extract_frames` keeps, stated directly: the first
      `MaxFramesPerVideo` multiples of the interval below `readable`. */
  function FrameSchedule(readable: nat, interval: nat): Sampled
  {
    if interval == 0 then (if readable == 0 then Frames([]) else ZeroDivision)
    else Frames(seq(Min(Config.MaxFramesPerVideo, CeilDiv(readable, interval)), j requires j >= 0 => j * interval))
  }

  /** `extract_frames` over `readable` decodable frames with an interval of
      `interval` frames: frame i is kept iff i is a multiple of the interval,
      until `MaxFramesPerVideo` frames are kept. */
  method ExtractFrames(readable: nat, interval: nat) returns (r: Sampled)
    ensures interval == 0 ==> r == (if readable == 0 then Frames([]) else ZeroDivision)
    ensures interval > 0 ==> r.Frames? && |r.indices| == Min(Config.MaxFramesPerVideo, CeilDiv(readable, interval))
    ensures interval > 0 ==> forall j :: 0 <= j < |r.indices| ==> r.indices[j] == j * interval
    ensures r == FrameSchedule(readable, interval)
  {
    var frames: seq<nat> := [];
    var count: nat := 0;
    while |frames| < Config.MaxFramesPerVideo
      invariant count <= readable
      invariant |frames| <= Config.MaxFramesPerVideo
      invariant interval == 0 ==> count == 0 && frames == []
      invariant interval > 0 ==> |frames| == CeilDiv(count, interval)
      invariant interval > 0 ==> forall j :: 0 <= j < |frames| ==> frames[j] == j * interval
      decreases readable - count
    {
      if count >= readable {
        break;  // the read fails: end of the stream
      }
      if interval == 0 {
        return ZeroDivision;
      }
      CeilDivStep(count, interval);
      if count % interval == 0 {
        frames := frames + [count];
      }
      count := count + 1;
    }
    if interval > 0 && |frames| == Config.MaxFramesPerVideo {
      CeilDivMonotone(count, readable, interval);
    }
    r := Frames(frames);
  }

  // ---------------------------------------------------------------------------
  // Target names (`convert_videos_to_web_compatible`)

  /** Python's `\w` on ASCII, plus the two other characters the pattern keeps. */
  predicate KeptInName(c: char)
  {
    ('a' <= c <= 'z') || ('A' <= c <= 'Z') || ('0' <= c <= '9') || c == '_' || c == '-' || c == '.'
  }

  /** `re.sub(r'[^\w\-_.]', '_', s)`: every other character becomes '_'. */
  function Sanitize(s: string): (r: string)
    ensures |r| == |s|
    ensures forall i :: 0 <= i < |s| ==> r[i] == (if KeptInName(s[i]) then s[i] else '_')
    ensures forall i :: 0 <= i < |r| ==> KeptInName(r[i])
    decreases |s|
  {
    if |s| == 0 then ""
    else
      var c := s[|s| - 1];
      Sanitize(s[..|s| - 1]) + [if KeptInName(c) then c else '_']
  }

  /** Sanitising a sanitised name changes nothing. */
  lemma SanitizeIdempotent(s: string)
    ensures Sanitize(Sanitize(s)) == Sanitize(s)
  {
  }

  /** Index of the last '.', or -1. */
  function LastDot(s: string): (d: int)
    ensures -1 <= d < |s|
    ensures d >= 0 ==> s[d] == '.'
    ensures forall j :: d < j < |s| ==> s[j] != '.'
    decreases |s|
  {
    if |s| == 0 then -1
    else if s[|s| - 1] == '.' then |s| - 1
    else LastDot(s[..|s| - 1])
  }

  /** `os.path.splitext(name)[0]` for a separator-free name: cut at the last
      dot unless only dots precede it (".mp4" keeps its whole name). */
  function Stem(name: string): (r: string)
    ensures StartsWith(name, r)
    ensures r != name ==> name[|r|] == '.' && (forall j :: |r| < j < |name| ==> name[j] != '.')
    ensures r != name ==> exists j :: 0 <= j < |r| && r[j] != '.'
    ensures r == name <==> !HasExtension(name)
  {
    var d := LastDot(name);
    if d >= 0 && exists j :: 0 <= j < d && name[j] != '.' then
      name[..d]
    else
      name
  }

  /** Some dot in the name has a non-dot somewhere before it. */
  predicate HasExtension(name: string)
  {
    exists i, j :: 0 <= j < i < |name| && name[j] != '.' && name[i] == '.'
  }

  const TargetExtension: string := ".mp4"

  /** The converted file's path: the sanitised stem with ".mp4", in `targetDir`. */
  function TargetPath(targetDir: string, source: string): (t: string)
    ensures t == Join(targetDir, Sanitize(Stem(Basename(source))) + TargetExtension)
    ensures Basename(t) == Sanitize(Stem(Basename(source))) + TargetExtension
    ensures Dirname(t) == targetDir || !DirShaped(targetDir)
  {
    var name := Sanitize(Stem(Basename(source))) + TargetExtension;
    assert Sep !in name by {
      forall i | 0 <= i < |name|
        ensures name[i] != Sep
      {
        if i >= |name| - |TargetExtension| {
          assert name[i] == TargetExtension[i - (|name| - |TargetExtension|)];
        } else {
          assert KeptInName(name[i]);
        }
      }
    }
    BasenameOfJoin(targetDir, name);
    BasenameOfName(name);
    assert DirShaped(targetDir) ==> Dirname(Join(targetDir, name)) == targetDir by {
      if DirShaped(targetDir) {
        DirnameOfJoin(targetDir, name);
      }
    }
    Join(targetDir, name)
  }

  // ---------------------------------------------------------------------------
  // Conversion bookkeeping

  /** What the outside world does to one conversion attempt: whether the
      temporary directory is created, ffmpeg exits with 0, and the copy works. */
  datatype ConvAttempt = ConvAttempt(mkdtempOk: bool, ffmpegOk: bool, copyOk: bool)

  datatype ConvEvent =
    | MakeTemp(source: string)
    | RunFfmpeg(source: string)
    | CopyTo(target: string)
    | RemoveTemp(source: string)

  /** The three outcome lists, the target paths that exist, and the effects so far. */
  datatype ConvState = ConvState(
    converted: seq<string>, skipped: seq<string>, failed: seq<string>,
    targets: set<string>, events: seq<ConvEvent>)

  predicate IsMakeTemp(e: ConvEvent) { e.MakeTemp? }
  predicate IsRemoveTemp(e: ConvEvent) { e.RemoveTemp? }
  predicate IsFfmpeg(e: ConvEvent) { e.RunFfmpeg? }

  /** The attempt gets through `mkdtemp`, ffmpeg and the copy. */
  predicate Converts(attempt: ConvAttempt)
  {
    attempt.mkdtempOk && attempt.ffmpegOk && attempt.copyOk
  }

  /** One iteration of the conversion loop for `source`. */
  function ConvertOne(st: ConvState, source: string, target: string, attempt: ConvAttempt): (r: ConvState)
    ensures target in st.targets ==> r == st.(skipped := st.skipped + [source])
    ensures target !in st.targets ==> r.skipped == st.skipped
    ensures target !in st.targets ==> (Converts(attempt) <==> r.converted == st.converted + [source])
    ensures target !in st.targets && Converts(attempt) ==> r.failed == st.failed
    ensures target !in st.targets && !Converts(attempt) ==> r.failed == st.failed + [source] && r.converted == st.converted
    ensures st.targets <= r.targets && st.skipped <= r.skipped
    ensures target in r.targets <==> target in st.targets || Converts(attempt)
    ensures r.targets <= st.targets + {target}
    ensures multiset(r.converted) + multiset(r.skipped) + multiset(r.failed)
            == multiset(st.converted) + multiset(st.skipped) + multiset(st.failed) + multiset{source}
  {
    if target in st.targets then st.(skipped := st.skipped + [source])
    else if !attempt.mkdtempOk then st.(failed := st.failed + [source])
    else if attempt.ffmpegOk && attempt.copyOk then
      st.(converted := st.converted + [source], targets := st.targets + {target},
          events := st.events + [MakeTemp(source), RunFfmpeg(source), CopyTo(target), RemoveTemp(source)])
    else
      st.(failed := st.failed + [source],
          events := st.events + [MakeTemp(source), RunFfmpeg(source), RemoveTemp(source)])
  }

  /** The iteration for `source`, with its target path and attempt outcome. */
  function Next(st: ConvState, targetOf: string -> string, source: string, attempts: string -> ConvAttempt): ConvState
  {
    ConvertOne(st, source, targetOf(source), attempts(source))
  }

  /** The conversion loop over `sources` in order. */
  function ConvertLoop(st: ConvState, targetOf: string -> string, sources: seq<string>, attempts: string -> ConvAttempt): ConvState
    decreases |sources|
  {
    if |sources| == 0 then st
    else ConvertLoop(Next(st, targetOf, sources[0], attempts), targetOf, sources[1..], attempts)
  }

  /** A (root, file name) pair of the walk whose file name is a video's. */
  predicate IsVideoEntry(entry: (string, string))
  {
    IsVideoName(entry.1)
  }

  /** Every video found by the directory walk, as (root, file name) pairs: the
      video entries in walk order, each root joined with its file name. */
  function WalkSources(walk: seq<(string, string)>): (sources: seq<string>)
    ensures |sources| == |Filter(walk, IsVideoEntry)|
    ensures forall i :: 0 <= i < |sources| ==>
              sources[i] == Join(Filter(walk, IsVideoEntry)[i].0, Filter(walk, IsVideoEntry)[i].1)
    decreases |walk|
  {
    if |walk| == 0 then []
    else
      var init := WalkSources(walk[..|walk| - 1]);
      var (root, file) := walk[|walk| - 1];
      if IsVideoName(file) then init + [Join(root, file)] else init
  }

  /** The target-path naming of one target directory. */
  function Namer(targetDir: string): string -> string
  {
    source => TargetPath(targetDir, source)
  }

  /** What the final deletion loop achieved: the sources removed, and whether an
      `os.remove` raised and ended the loop early. */
  datatype Removal = Removal(removed: seq<string>, raised: bool)

  /** `os.remove` on each path in order; the first failure raises, which ends
      the loop and leaves the rest in place. */
  function RemoveAll(paths: seq<string>, removeOk: string -> bool): (r: Removal)
    ensures |r.removed| <= |paths| && r.removed == paths[..|r.removed|]
    ensures forall i :: 0 <= i < |r.removed| ==> removeOk(r.removed[i])
    ensures r.raised <==> |r.removed| < |paths|
    ensures r.raised ==> !removeOk(paths[|r.removed|])
    decreases |paths|
  {
    if |paths| == 0 then Removal([], false)
    else if !removeOk(paths[0]) then Removal([], true)
    else
      var rest := RemoveAll(paths[1..], removeOk);
      Removal([paths[0]] + rest.removed, rest.raised)
  }

  /** The result of a whole conversion: the three outcome lists, the effects,
      and the deletion of the converted sources at the end. When that deletion
      raises, the exception leaves `convert_videos_to_web_compatible` and is
      caught by `index_videos`, which carries on. */
  datatype ConvReport = ConvReport(state: ConvState, deletion: Removal)

  /** Every converted source had a successful attempt, and its target exists. */
  predicate ConvertedOk(st: ConvState, targetOf: string -> string, attempts: string -> ConvAttempt)
  {
    forall s :: s in st.converted ==> Converts(attempts(s)) && targetOf(s) in st.targets
  }

  /** `convert_videos_to_web_compatible`: `existing` are the target paths
      present before the call, `removeOk` says which sources `os.remove` can
      delete. Only converted sources are deleted, in conversion order, each
      with a successful attempt and its target in place. */
  function ConvertVideos(walk: seq<(string, string)>, targetDir: string, existing: set<string>,
                         attempts: string -> ConvAttempt, removeOk: string -> bool): (r: ConvReport)
    ensures existing <= r.state.targets
    ensures |r.deletion.removed| <= |r.state.converted|
    ensures r.deletion.removed == r.state.converted[..|r.deletion.removed|]
    ensures r.deletion.raised <==> |r.deletion.removed| < |r.state.converted|
    ensures forall s :: s in r.deletion.removed ==>
              Converts(attempts(s)) && TargetPath(targetDir, s) in r.state.targets
  {
    var init := ConvState([], [], [], existing, []);
    var st := ConvertLoop(init, Namer(targetDir), WalkSources(walk), attempts);
    ConvertLoopTargetsGrow(init, Namer(targetDir), WalkSources(walk), attempts);
    ConvertLoopConvertedOk(init, Namer(targetDir), WalkSources(walk), attempts);
    var del := RemoveAll(st.converted, removeOk);
    RemovedWereConverted(st, Namer(targetDir), attempts, del.removed);
    assert forall s :: s in del.removed ==> Namer(targetDir)(s) == TargetPath(targetDir, s);
    ConvReport(st, del)
  }

  /** A prefix of the converted list inherits `ConvertedOk`. */
  lemma RemovedWereConverted(st: ConvState, targetOf: string -> string, attempts: string -> ConvAttempt,
                             removed: seq<string>)
    requires ConvertedOk(st, targetOf, attempts)
    requires |removed| <= |st.converted| && removed == st.converted[..|removed|]
    ensures forall s :: s in removed ==> Converts(attempts(s)) && targetOf(s) in st.targets
  {
    forall s | s in removed
      ensures Converts(attempts(s)) && targetOf(s) in st.targets
    {
      var i :| 0 <= i < |removed| && removed[i] == s;
      assert st.converted[i] == s;
    }
  }

  /** The loop keeps `ConvertedOk`. */
  lemma {:induction false} ConvertLoopConvertedOk(st: ConvState, targetOf: string -> string, sources: seq<string>,
                                                  attempts: string -> ConvAttempt)
    requires ConvertedOk(st, targetOf, attempts)
    ensures ConvertedOk(ConvertLoop(st, targetOf, sources, attempts), targetOf, attempts)
    decreases |sources|
  {
    if |sources| > 0 {
      var st' := Next(st, targetOf, sources[0], attempts);
      assert ConvertedOk(st', targetOf, attempts) by {
        forall s | s in st'.converted
          ensures Converts(attempts(s)) && targetOf(s) in st'.targets
        {
          if s !in st.converted {
            assert s == sources[0];
          }
        }
      }
      ConvertLoopConvertedOk(st', targetOf, sources[1..], attempts);
    }
  }

  /** Every source ends in exactly one of the three lists. */
  lemma {:induction false} ConvertLoopPartition(st: ConvState, targetOf: string -> string, sources: seq<string>, attempts: string -> ConvAttempt)
    ensures var r := ConvertLoop(st, targetOf, sources, attempts);
            multiset(r.converted) + multiset(r.skipped) + multiset(r.failed)
            == multiset(st.converted) + multiset(st.skipped) + multiset(st.failed) + multiset(sources)
    decreases |sources|
  {
    if |sources| > 0 {
      var st' := Next(st, targetOf, sources[0], attempts);
      ConvertLoopPartition(st', targetOf, sources[1..], attempts);
      assert sources == [sources[0]] + sources[1..];
    }
  }

  /** The loop only ever adds target paths. */
  lemma {:induction false} ConvertLoopTargetsGrow(st: ConvState, targetOf: string -> string, sources: seq<string>, attempts: string -> ConvAttempt)
    ensures st.targets <= ConvertLoop(st, targetOf, sources, attempts).targets
    ensures st.skipped <= ConvertLoop(st, targetOf, sources, attempts).skipped
    decreases |sources|
  {
    if |sources| > 0 {
      var st' := Next(st, targetOf, sources[0], attempts);
      ConvertLoopTargetsGrow(st', targetOf, sources[1..], attempts);
      assert st.skipped <= st'.skipped;
    }
  }

  /** A source whose target already exists when its turn comes is skipped. */
  lemma {:induction false} ConvertLoopSkipsExisting(st: ConvState, targetOf: string -> string, sources: seq<string>,
                                                     attempts: string -> ConvAttempt, j: nat)
    requires j < |sources|
    requires targetOf(sources[j]) in st.targets
    ensures sources[j] in ConvertLoop(st, targetOf, sources, attempts).skipped
    decreases |sources|
  {
    var st' := Next(st, targetOf, sources[0], attempts);
    assert ConvertLoop(st, targetOf, sources, attempts) == ConvertLoop(st', targetOf, sources[1..], attempts);
    if j == 0 {
      assert sources[0] in st'.skipped;
      ConvertLoopTargetsGrow(st', targetOf, sources[1..], attempts);
    } else {
      assert sources[1..][j - 1] == sources[j];
      ConvertLoopSkipsExisting(st', targetOf, sources[1..], attempts, j - 1);
    }
  }

  /** After a source converts (or finds its target present), a later source
      with the same sanitised name is skipped without running ffmpeg. */
  lemma {:induction false} ConvertLoopSkipsSameName(st: ConvState, targetOf: string -> string, sources: seq<string>,
                                                     attempts: string -> ConvAttempt, i: nat, j: nat)
    requires i < j < |sources|
    requires targetOf(sources[i]) == targetOf(sources[j])
    requires var a := attempts(sources[i]); a.mkdtempOk && a.ffmpegOk && a.copyOk
    ensures sources[j] in ConvertLoop(st, targetOf, sources, attempts).skipped
    decreases |sources|
  {
    var st' := Next(st, targetOf, sources[0], attempts);
    if i == 0 {
      ConvertLoopSkipsExisting(st', targetOf, sources[1..], attempts, j - 1);
    } else {
      ConvertLoopSkipsSameName(st', targetOf, sources[1..], attempts, i - 1, j - 1);
    }
  }

  /** The three event counts after appending one event. */
  lemma CountsSnoc(es: seq<ConvEvent>, e: ConvEvent)
    ensures |Filter(es + [e], IsMakeTemp)| == |Filter(es, IsMakeTemp)| + (if e.MakeTemp? then 1 else 0)
    ensures |Filter(es + [e], IsRemoveTemp)| == |Filter(es, IsRemoveTemp)| + (if e.RemoveTemp? then 1 else 0)
    ensures |Filter(es + [e], IsFfmpeg)| == |Filter(es, IsFfmpeg)| + (if e.RunFfmpeg? then 1 else 0)
  {
    assert [e][..0] == [];
    FilterAppend(es, [e], IsMakeTemp);
    FilterAppend(es, [e], IsRemoveTemp);
    FilterAppend(es, [e], IsFfmpeg);
  }

  /** One iteration appends as many temporary-directory removals and ffmpeg
      runs as temporary-directory creations. */
  lemma ConvertOneBalanced(st: ConvState, source: string, target: string, attempt: ConvAttempt)
    ensures var es := ConvertOne(st, source, target, attempt).events;
            && |Filter(es, IsMakeTemp)| - |Filter(st.events, IsMakeTemp)|
               == |Filter(es, IsRemoveTemp)| - |Filter(st.events, IsRemoveTemp)|
            && |Filter(es, IsMakeTemp)| - |Filter(st.events, IsMakeTemp)|
               == |Filter(es, IsFfmpeg)| - |Filter(st.events, IsFfmpeg)|
  {
    var es := ConvertOne(st, source, target, attempt).events;
    if target in st.targets || !attempt.mkdtempOk {
      assert es == st.events;
    } else {
      var e1 := st.events + [MakeTemp(source)];
      var e2 := e1 + [RunFfmpeg(source)];
      CountsSnoc(st.events, MakeTemp(source));
      CountsSnoc(e1, RunFfmpeg(source));
      if attempt.ffmpegOk && attempt.copyOk {
        var e3 := e2 + [CopyTo(target)];
        CountsSnoc(e2, CopyTo(target));
        CountsSnoc(e3, RemoveTemp(source));
        assert es == e3 + [RemoveTemp(source)];
      } else {
        CountsSnoc(e2, RemoveTemp(source));
        assert es == e2 + [RemoveTemp(source)];
      }
    }
  }

  /** Every temporary directory created is removed again, and ffmpeg only ever
      runs inside one. */
  lemma {:induction false} ConvertLoopCleansTemp(st: ConvState, targetOf: string -> string, sources: seq<string>, attempts: string -> ConvAttempt)
    requires |Filter(st.events, IsMakeTemp)| == |Filter(st.events, IsRemoveTemp)| == |Filter(st.events, IsFfmpeg)|
    ensures var es := ConvertLoop(st, targetOf, sources, attempts).events;
            |Filter(es, IsMakeTemp)| == |Filter(es, IsRemoveTemp)| == |Filter(es, IsFfmpeg)|
    decreases |sources|
  {
    if |sources| > 0 {
      var st' := Next(st, targetOf, sources[0], attempts);
      ConvertOneBalanced(st, sources[0], targetOf(sources[0]), attempts(sources[0]));
      ConvertLoopCleansTemp(st', targetOf, sources[1..], attempts);
    }
  }

  /** Only converted sources are deleted: with distinct sources (a directory
      walk never repeats a path) no skipped or failed source is removed, and
      when every removal succeeds all converted sources are. */
  lemma ConvertVideosDeletesOnlyConverted(walk: seq<(string, string)>, targetDir: string, existing: set<string>,
                                          attempts: string -> ConvAttempt, removeOk: string -> bool)
    requires Distinct(WalkSources(walk))
    ensures var r := ConvertVideos(walk, targetDir, existing, attempts, removeOk);
            && (forall s :: s in r.state.converted ==> removeOk(s)) ==> r.deletion.removed == r.state.converted
    ensures var r := ConvertVideos(walk, targetDir, existing, attempts, removeOk);
            && (forall s :: s in r.state.skipped || s in r.state.failed ==> s !in r.deletion.removed)
            && (forall s :: s in r.deletion.removed ==>
                  Converts(attempts(s)) && TargetPath(targetDir, s) in r.state.targets)
            && |r.state.converted| + |r.state.skipped| + |r.state.failed| == |WalkSources(walk)|
  {
    var sources := WalkSources(walk);
    var init := ConvState([], [], [], existing, []);
    var st := ConvertLoop(init, Namer(targetDir), sources, attempts);
    ConvertLoopPartition(init, Namer(targetDir), sources, attempts);
    assert multiset(init.converted) + multiset(init.skipped) + multiset(init.failed) == multiset{};
    assert multiset(st.converted) + multiset(st.skipped) + multiset(st.failed) == multiset(sources);
    DisjointOutcomes(st.converted, st.skipped, st.failed, sources);
    var r := ConvertVideos(walk, targetDir, existing, attempts, removeOk);
    assert r.state == st;
    assert forall s :: s in r.deletion.removed ==> s in st.converted;
  }

  /** Three lists that together are a permutation of a repetition-free list
      share no element, and their lengths add up. */
  lemma DisjointOutcomes(a: seq<string>, b: seq<string>, c: seq<string>, s: seq<string>)
    requires multiset(a) + multiset(b) + multiset(c) == multiset(s)
    requires Distinct(s)
    ensures forall x :: x in b || x in c ==> x !in a
    ensures |a| + |b| + |c| == |s|
  {
    DistinctMultiplicity(s);
    forall x | x in b || x in c
      ensures x !in a
    {
      assert multiset(s)[x] == multiset(a)[x] + multiset(b)[x] + multiset(c)[x];
      assert multiset(b)[x] + multiset(c)[x] >= 1;
    }
    assert |multiset(s)| == |s|;
  }

  lemma {:induction false} DistinctMultiplicity(s: seq<string>)
    requires Distinct(s)
    ensures forall x :: multiset(s)[x] <= 1
    decreases |s|
  {
    if |s| > 0 {
      var init := s[..|s| - 1];
      DistinctMultiplicity(init);
      assert s == init + [s[|s| - 1]];
      assert s[|s| - 1] !in init;
    }
  }
}

=== FILE: search_api.dfy ===
/** The search endpoint (`search_videos` in api/search_api.py): embed the query,
    answer from the semantic cache when a stored query is similar enough,
    otherwise run the fused hybrid search and cache its answer. The embedders
    and Qdrant are oracles. */
module SearchApi {
  import opened Basics
  import opened Gateway
  import Config

  /** The request body. A body without `limit` gets the configured default; an
      explicit `null` is kept as `None`. */
  datatype Request = Request(query: string, limit: Option<int>)

  function RequestWithDefault(query: string): (r: Request)
    ensures r.query == query && r.limit == Some(Config.SearchLimit)
  {
    Request(query, Some(Config.SearchLimit))
  }

  /** The three query embedders; `None` when the model raises. The sparse one
      answers a list, whose first element is used. */
  datatype Embedders = Embedders(
    dense: string -> Option<Vec>,
    clip: string -> Option<Vec>,
    sparse: string -> Option<seq<SparseVec>>)

  /** Qdrant as the handler sees it: the nearest-cached-query lookup (against
      the cache's current contents), the fused search, and whether a cache
      write succeeds. */
  datatype Backend = Backend(
    lookup: (seq<CacheEntry>, CacheQuery) -> Answer<CacheHit>,
    hybrid: HybridQuery -> Answer<ScoredPoint>,
    writeOk: seq<CacheEntry> -> bool)

  /** The outside calls a request makes, in order. */
  datatype Call =
    | EmbedDense
    | SearchCache(q: CacheQuery)
    | EmbedClip
    | EmbedSparse
    | QueryHybrid(h: HybridQuery)
    | WriteCache(entryQuery: string)

  /** 200 with rows, or the 500 every exception is turned into. */
  datatype Reply = Rows(rows: seq<SearchResult>) | ServerError

  datatype Served = Served(reply: Reply, cache: seq<CacheEntry>, calls: seq<Call>)

  /** The cached rows to replay, if the nearest cached query is close enough. */
  function CachedAnswer(hits: seq<CacheHit>): (r: Option<seq<SearchResult>>)
    ensures r.Some? <==> |hits| > 0 && hits[0].score >= Config.ThresholdSemantic
    ensures r.Some? ==> r.value == hits[0].entry.results
  {
    if |hits| == 0 then None
    else if hits[0].score >= Config.ThresholdSemantic then Some(hits[0].entry.results)
    else None
  }

  /** The cache lookup as `semantic_search` performs it on the current cache. */
  function Hits(be: Backend, cache: seq<CacheEntry>, v: Vec): seq<CacheHit>
  {
    SemanticSearch(q => be.lookup(cache, q), v)
  }

  /** The fused query the miss path sends, when the limit can be doubled. */
  function HybridCalls(clipV: Vec, v: Vec, sparse: SparseVec, limit: Option<int>): seq<Call>
  {
    if limit.Some? then [QueryHybrid(HybridQueryFor(clipV, v, sparse, limit.value))] else []
  }

  /** The miss path after the dense embedding `v`: the two other embeddings,
      the fused search, and the cache write of whatever it returned. */
  function Miss(req: Request, emb: Embedders, be: Backend, cache: seq<CacheEntry>, v: Vec, prefix: seq<Call>): (s: Served)
    ensures s.reply.ServerError? ==> s.cache == cache
    ensures s.reply.Rows? ==> s.cache == UpsertSemanticCache(cache, req.query, v, s.reply.rows, be.writeOk(cache))
  {
    match emb.clip(req.query)
    case None => Served(ServerError, cache, prefix + [EmbedClip])
    case Some(clipV) =>
      match emb.sparse(req.query)
      case None => Served(ServerError, cache, prefix + [EmbedClip, EmbedSparse])
      case Some(sparse) =>
        if |sparse| == 0 then Served(ServerError, cache, prefix + [EmbedClip, EmbedSparse])
        else
          var rows := HybridSearch(req.query, clipV, v, sparse[0], req.limit, be.hybrid);
          Served(Rows(rows), UpsertSemanticCache(cache, req.query, v, rows, be.writeOk(cache)),
                 prefix + [EmbedClip, EmbedSparse] + HybridCalls(clipV, v, sparse[0], req.limit) + [WriteCache(req.query)])
  }

  /** `search_videos` on one request against the cache `cache`. */
  function SearchVideos(req: Request, emb: Embedders, be: Backend, cache: seq<CacheEntry>): (s: Served)
    ensures s.cache == cache || (|s.cache| == |cache| + 1 && s.cache[..|cache|] == cache
                                 && s.cache[|cache|].queryText == req.query)
    ensures s.reply.ServerError? ==> s.cache == cache
    ensures emb.dense(req.query).None? <==> s.calls == [EmbedDense]
    ensures emb.dense(req.query).None? ==> s.reply == ServerError
  {
    match emb.dense(req.query)
    case None => Served(ServerError, cache, [EmbedDense])
    case Some(v) =>
      var prefix := [EmbedDense, SearchCache(CacheQueryFor(v))];
      match CachedAnswer(Hits(be, cache, v))
      case Some(rows) => Served(Rows(rows), cache, prefix)
      case None => Miss(req, emb, be, cache, v, prefix)
  }

  /** A hit: the nearest cached query scores at least the threshold. The
      cached rows are replayed verbatim; nothing else is embedded, searched or
      written. */
  lemma SearchHitReplays(req: Request, emb: Embedders, be: Backend, cache: seq<CacheEntry>, v: Vec)
    requires emb.dense(req.query) == Some(v)
    requires var h := Hits(be, cache, v); |h| > 0 && h[0].score >= Config.ThresholdSemantic
    ensures var s := SearchVideos(req, emb, be, cache);
            && s.reply == Rows(Hits(be, cache, v)[0].entry.results)
            && s.cache == cache
            && s.calls == [EmbedDense, SearchCache(CacheQueryFor(v))]
  {
  }

  /** A miss (no cached query, or the nearest scores below the threshold)
      with working embedders: the rows are those of the fused search built
      from the same dense vector the cache was probed with, the request's limit
      goes to Qdrant unchanged, and exactly those rows are cached. */
  lemma SearchMissRunsHybrid(req: Request, emb: Embedders, be: Backend, cache: seq<CacheEntry>,
                             v: Vec, clipV: Vec, sparse: seq<SparseVec>)
    requires emb.dense(req.query) == Some(v)
    requires var h := Hits(be, cache, v); |h| == 0 || h[0].score < Config.ThresholdSemantic
    requires emb.clip(req.query) == Some(clipV) && emb.sparse(req.query) == Some(sparse) && |sparse| > 0
    ensures var s := SearchVideos(req, emb, be, cache);
            var rows := HybridSearch(req.query, clipV, v, sparse[0], req.limit, be.hybrid);
            && s.reply == Rows(rows)
            && s.cache == UpsertSemanticCache(cache, req.query, v, rows, be.writeOk(cache))
            && s.calls == [EmbedDense, SearchCache(CacheQueryFor(v)), EmbedClip, EmbedSparse]
                          + HybridCalls(clipV, v, sparse[0], req.limit) + [WriteCache(req.query)]
            && s.calls[..2] == [EmbedDense, SearchCache(CacheQueryFor(v))]
            && (forall i :: 0 <= i < |s.calls| && s.calls[i].QueryHybrid? ==>
                  s.calls[i].h == HybridQueryFor(clipV, v, sparse[0], req.limit.value))
            && (req.limit.Some? <==> exists i :: 0 <= i < |s.calls| && s.calls[i].QueryHybrid?)
            && s.calls[|s.calls| - 1] == WriteCache(req.query)
  {
    var s := SearchVideos(req, emb, be, cache);
    var prefix := [EmbedDense, SearchCache(CacheQueryFor(v))];
    var hc := HybridCalls(clipV, v, sparse[0], req.limit);
    assert s.calls == prefix + [EmbedClip, EmbedSparse] + hc + [WriteCache(req.query)];
    if req.limit.Some? {
      assert s.calls[4] == hc[0];
    }
  }

  /** A query whose cache probe finds nothing is always a miss. */
  lemma EmptyLookupIsMiss(req: Request, emb: Embedders, be: Backend, cache: seq<CacheEntry>, v: Vec)
    requires emb.dense(req.query) == Some(v)
    requires be.lookup(cache, CacheQueryFor(v)).Raised? || be.lookup(cache, CacheQueryFor(v)) == Returned([])
    ensures SearchVideos(req, emb, be, cache).calls[2] == EmbedClip
  {
    assert Hits(be, cache, v) == [];
  }

  /** Only the embedders can produce a 500: Qdrant failures become empty rows. */
  lemma ServerErrorOnlyFromEmbedders(req: Request, emb: Embedders, be: Backend, cache: seq<CacheEntry>)
    requires emb.dense(req.query).Some? && emb.clip(req.query).Some?
    requires emb.sparse(req.query).Some? && |emb.sparse(req.query).value| > 0
    ensures SearchVideos(req, emb, be, cache).reply.Rows?
  {
  }

  /** A failed fused search (Qdrant raising, or an explicit `null` limit) is
      answered with no rows, and those empty rows are cached; the later replay
      of that entry is `CachedEmptyIsReplayed`. */
  lemma FailedSearchCachesEmpty(req: Request, emb: Embedders, be: Backend, cache: seq<CacheEntry>,
                                v: Vec, clipV: Vec, sparse: seq<SparseVec>)
    requires emb.dense(req.query) == Some(v)
    requires var h := Hits(be, cache, v); |h| == 0 || h[0].score < Config.ThresholdSemantic
    requires emb.clip(req.query) == Some(clipV) && emb.sparse(req.query) == Some(sparse) && |sparse| > 0
    requires req.limit.None? || be.hybrid(HybridQueryFor(clipV, v, sparse[0], req.limit.value)).Raised?
    requires be.writeOk(cache)
    ensures var s := SearchVideos(req, emb, be, cache);
            && s.reply == Rows([])
            && |s.cache| == |cache| + 1
            && s.cache[|cache|].results == []
            && s.cache[|cache|].queryText == req.query
  {
    SearchMissRunsHybrid(req, emb, be, cache, v, clipV, sparse);
  }

  /** The lookup answers only with entries of the cache it searches, as a
      search of the cache collection does. */
  ghost predicate LookupFromCache(be: Backend)
  {
    forall c: seq<CacheEntry>, q: CacheQuery, i: int ::
      be.lookup(c, q).Returned? && 0 <= i < |be.lookup(c, q).points| ==> be.lookup(c, q).points[i].entry in c
  }

  /** A request answered after only the dense embedding and the cache lookup
      is a hit, and its rows are those some stored entry holds. */
  lemma CacheRepliesFromStoredEntry(req: Request, emb: Embedders, be: Backend, cache: seq<CacheEntry>)
    requires LookupFromCache(be)
    ensures var s := SearchVideos(req, emb, be, cache);
            |s.calls| == 2 ==> s.reply.Rows? && exists e :: e in cache && s.reply.rows == e.results
  {
    var s := SearchVideos(req, emb, be, cache);
    if |s.calls| == 2 {
      var v := emb.dense(req.query).value;
      var h := Hits(be, cache, v);
      assert CachedAnswer(h).Some?;
      assert h[0].entry in cache;
    }
  }

  /** After a failed fused search has cached its empty rows, a later query
      whose lookup finds that entry close enough is answered with no rows from
      the cache, without embedding or searching further, and the cache stays
      as it is. */
  lemma CachedEmptyIsReplayed(req: Request, req2: Request, emb: Embedders, be: Backend, cache: seq<CacheEntry>,
                              v: Vec, clipV: Vec, sparse: seq<SparseVec>, v2: Vec)
    requires emb.dense(req.query) == Some(v)
    requires var h := Hits(be, cache, v); |h| == 0 || h[0].score < Config.ThresholdSemantic
    requires emb.clip(req.query) == Some(clipV) && emb.sparse(req.query) == Some(sparse) && |sparse| > 0
    requires req.limit.None? || be.hybrid(HybridQueryFor(clipV, v, sparse[0], req.limit.value)).Raised?
    requires be.writeOk(cache)
    requires emb.dense(req2.query) == Some(v2)
    requires var c1 := SearchVideos(req, emb, be, cache).cache;
             var h := Hits(be, c1, v2);
             |c1| > |cache| && |h| > 0 && h[0].score >= Config.ThresholdSemantic && h[0].entry == c1[|cache|]
    ensures var c1 := SearchVideos(req, emb, be, cache).cache;
            var s2 := SearchVideos(req2, emb, be, c1);
            && s2.reply == Rows([])
            && s2.calls == [EmbedDense, SearchCache(CacheQueryFor(v2))]
            && s2.cache == c1
  {
    var c1 := SearchVideos(req, emb, be, cache).cache;
    FailedSearchCachesEmpty(req, emb, be, cache, v, clipV, sparse);
    SearchHitReplays(req2, emb, be, c1, v2);
  }

  /** A burst of requests served one after another against one cache. */
  function ServeAll(reqs: seq<Request>, emb: Embedders, be: Backend, cache: seq<CacheEntry>): (r: (seq<Reply>, seq<CacheEntry>))
    ensures |r.0| == |reqs|
    decreases |reqs|
  {
    if |reqs| == 0 then ([], cache)
    else
      var s := SearchVideos(reqs[0], emb, be, cache);
      var rest := ServeAll(reqs[1..], emb, be, s.cache);
      ([s.reply] + rest.0, rest.1)
  }

  /** Every entry added by a burst is some request's query. */
  predicate NewEntriesFrom(cache: seq<CacheEntry>, after: seq<CacheEntry>, reqs: seq<Request>)
    requires |cache| <= |after|
  {
    forall k :: |cache| <= k < |after| ==> exists i :: 0 <= i < |reqs| && after[k].queryText == reqs[i].query
  }

  /** The cache only grows: earlier entries are kept in place, at most one
      entry is added per request, and every added entry is for one of the
      requests' queries. */
  lemma {:induction false} ServeAllAppendOnly(reqs: seq<Request>, emb: Embedders, be: Backend, cache: seq<CacheEntry>)
    ensures var after := ServeAll(reqs, emb, be, cache).1;
            && |cache| <= |after| <= |cache| + |reqs|
            && after[..|cache|] == cache
            && NewEntriesFrom(cache, after, reqs)
    decreases |reqs|
  {
    if |reqs| > 0 {
      var s := SearchVideos(reqs[0], emb, be, cache);
      ServeAllAppendOnly(reqs[1..], emb, be, s.cache);
      var after := ServeAll(reqs, emb, be, cache).1;
      assert after == ServeAll(reqs[1..], emb, be, s.cache).1;
      assert after[..|cache|] == cache by {
        assert after[..|s.cache|] == s.cache;
        assert s.cache[..|cache|] == cache;
      }
      forall k | |cache| <= k < |after|
        ensures exists i :: 0 <= i < |reqs| && after[k].queryText == reqs[i].query
      {
        if k < |s.cache| {
          assert after[k] == after[..|s.cache|][k] == s.cache[k];
          assert after[k].queryText == reqs[0].query;
        } else {
          var j :| 0 <= j < |reqs[1..]| && after[k].queryText == reqs[1..][j].query;
          assert reqs[j + 1] == reqs[1..][j];
        }
      }
    }
  }

  /** With the default limit the fused query fetches 20 candidates per vector
      space and asks for 10 results. */
  lemma DefaultLimitQuery(query: string, clipV: Vec, v: Vec, sparse: SparseVec)
    ensures var q := HybridQueryFor(clipV, v, sparse, RequestWithDefault(query).limit.value);
            && q.limit == 10
            && forall i :: 0 <= i < |q.prefetch| ==> q.prefetch[i].limit == 20
  {
  }
}
